=== FILE: README.md ===
# Azure Web App Maven plugin: deployment decisions, verified

A Dafny model of the decisions the `azure-webapp-maven-plugin` deploy goal makes
between logging in and pushing bytes. It covers four parts:

- **Subscription resolution** (`AbstractWebAppMojo`): the explicit subscription
  id, then the credential's default, then a filter list that must match exactly
  one account subscription, then an account with a single subscription, then an
  interactive pick. The result is checked against the account before it scopes
  the client.
- **Resource reconciliation** (`DeployMojo`): create or update the web app, or
  create a deployment slot under an existing app. The resource group and the App
  Service plan are got or created, with the plan-reuse and pricing-tier rule.
- **Deployment** (`DeployMojo`): the optional stop, one of four artifact
  strategies (none, a single deploy, one deploy per WAR, or a zip deploy of a
  staging tree), the FTP push of external resources, and the start that the
  `finally` block always issues.
- **The VS Code credential retriever**: the cloud-environment conflict check and
  the public-cloud default.

The remote management plane is an abstract state (`ManagementPlane.Cloud`). It
holds maps of resource groups, plans keyed by (resource group, name), web apps
and slots, plus an append-only trace of the remote calls. The SDK becomes a set
of transitions on that state:

- `Reconcile` and `Strategy` give them as functions.
- `Deploy.DeployMojo` carries them out step by step, as methods on a `cloud`
  field, each proved equal to its function.

Predicates whose bodies are outside the core are function-typed parameters:
`isAllWarArtifacts`, `isExternalResource`, `intersectIgnoreCase`, the
`SubscriptionOption2` ordering (a rank), `prepareJavaSERuntimeJarArtifact` (a
rename of the staging tree), the VS Code profile lookup and the cloud-name
parser.

The interactive prompt is an oracle too. It returns nothing or one of the options
offered (`Subscriptions.AnswersFromOptions`).

A remote call or packaging step that throws is named by a fault index
`failAt`: the position of the failing step in the deployment's step list.

Files:

| file | module |
|---|---|
| wrappers.dfy | `Option`, `Result`, `Outcome` |
| jstrings.dfy | Java's `StringUtils.isEmpty`/`isBlank`/`firstNonBlank` over optional strings |
| auth.dfy | `VisualStudioCodeCredentialRetriever` |
| subscriptions.dfy | subscription resolution and the client flow of `AbstractWebAppMojo` |
| webapp_mojo.dfy | the state of `AbstractWebAppMojo`: getters, inject-once runtime, init-once staging path, slot lookup |
| cloud.dfy | configuration record, remote state, call trace |
| reconcile.dfy | reconciliation transitions and their properties |
| strategy.dfy | deployment steps, fault-index execution and their properties |
| deploy_mojo.dfy | class `DeployMojo` |

## Model

| member | source | states |
|---|---|---|
| Auth.CheckAzureEnvironmentConflict | azure-toolkit-libs/azure-toolkit-auth-lib/src/main/java/com/microsoft/azure/tools/auth/core/vscode/VisualStudioCodeCredentialRetriever.java:45-51 | fails exactly when both environments are set and differ, with a conflict error naming both |
| Auth.NoConflictWithoutBothEnvironments | azure-toolkit-libs/azure-toolkit-auth-lib/src/main/java/com/microsoft/azure/tools/auth/core/vscode/VisualStudioCodeCredentialRetriever.java:46 | an unset environment on either side never conflicts; the check is symmetric |
| Auth.VisualStudioCodeCredentialRetriever.GetAzureEnvironment | azure-toolkit-libs/azure-toolkit-auth-lib/src/main/java/com/microsoft/azure/tools/auth/core/vscode/VisualStudioCodeCredentialRetriever.java:57-59 | the VS Code environment when set, the public cloud otherwise; never null |
| Auth.VisualStudioCodeCredentialRetriever.RetrieveInternal | azure-toolkit-libs/azure-toolkit-auth-lib/src/main/java/com/microsoft/azure/tools/auth/core/vscode/VisualStudioCodeCredentialRetriever.java:29-43 | the profile is looked up against the environment known before the call; `envFromVscode` is set from the profile before the conflict check; a conflict aborts before any credential; an invalid configuration becomes a login failure; success carries the VS Code (or public) cloud and the profile's filtered ids |
| Auth.FreshRetrieverLooksUpPublicCloud | azure-toolkit-libs/azure-toolkit-auth-lib/src/main/java/com/microsoft/azure/tools/auth/core/vscode/VisualStudioCodeCredentialRetriever.java:31-32 | on a fresh retriever the lookup is made against the public cloud, and the conflict error fires exactly when the configured and VS Code clouds are both set and differ |
| JavaStrings.FirstNonBlank | azure-webapp-maven-plugin/src/main/java/com/microsoft/azure/maven/webapp/AbstractWebAppMojo.java:459 | the first non-blank of two optional strings, else none |
| Subscriptions.SortByRankSorts | azure-webapp-maven-plugin/src/main/java/com/microsoft/azure/maven/webapp/AbstractWebAppMojo.java:483-485 | the sorted options are ordered by the `SubscriptionOption2` rank |
| Subscriptions.PromptOptions | azure-webapp-maven-plugin/src/main/java/com/microsoft/azure/maven/webapp/AbstractWebAppMojo.java:483-485 | the options are a permutation of the account's subscriptions, sorted by rank |
| Subscriptions.DefaultRanksFirst | azure-webapp-maven-plugin/src/main/java/com/microsoft/azure/maven/webapp/AbstractWebAppMojo.java:486 | the default offered is the first option, which ranks no higher than any subscription |
| Subscriptions.SelectSubscription | azure-webapp-maven-plugin/src/main/java/com/microsoft/azure/maven/webapp/AbstractWebAppMojo.java:474-496 | no subscription fails with "Cannot find any subscriptions"; a single one is returned without prompting; otherwise the sorted options are offered with the first as default, a null pick fails, and a pick gives the picked subscription's id, which is a listed one |
| Subscriptions.ContainsIdMeansPresent | azure-webapp-maven-plugin/src/main/java/com/microsoft/azure/maven/webapp/AbstractWebAppMojo.java:503-505 | the membership scan finds an id exactly when some subscription carries it |
| Subscriptions.CheckSubscription | azure-webapp-maven-plugin/src/main/java/com/microsoft/azure/maven/webapp/AbstractWebAppMojo.java:498-509 | passes exactly when the target is empty or carried by a subscription; otherwise fails with not-found for that id |
| Subscriptions.FirstResolved | azure-webapp-maven-plugin/src/main/java/com/microsoft/azure/maven/webapp/AbstractWebAppMojo.java:459-468 | the candidate it returns is non-blank and every candidate before it is blank; none only when all are blank |
| Subscriptions.TargetSubscriptionId | azure-webapp-maven-plugin/src/main/java/com/microsoft/azure/maven/webapp/AbstractWebAppMojo.java:456-472 | reference definition of the fallback; fails only in the selection after both ids are blank, and otherwise returns one of the ids, a filter match or an account subscription's id |
| Subscriptions.GetTargetSubscriptionId | azure-webapp-maven-plugin/src/main/java/com/microsoft/azure/maven/webapp/AbstractWebAppMojo.java:456-472 | the step-by-step narrowing equals the ordered fallback (configured id, default id, single filter match, selection) |
| Subscriptions.ConfiguredIdWins | azure-webapp-maven-plugin/src/main/java/com/microsoft/azure/maven/webapp/AbstractWebAppMojo.java:459 | a non-blank configured id is the target, whatever the credential says |
| Subscriptions.DefaultIdSecond | azure-webapp-maven-plugin/src/main/java/com/microsoft/azure/maven/webapp/AbstractWebAppMojo.java:459 | with a blank configured id, a non-blank default id is the target |
| Subscriptions.FilterIgnoredWhenAnIdIsSet | azure-webapp-maven-plugin/src/main/java/com/microsoft/azure/maven/webapp/AbstractWebAppMojo.java:461 | when either id is non-blank, the filter list and intersection do not affect the target |
| Subscriptions.SingleFilterMatchSelected | azure-webapp-maven-plugin/src/main/java/com/microsoft/azure/maven/webapp/AbstractWebAppMojo.java:461-466 | with both ids blank and a filter intersection of exactly one id, that id is the target |
| Subscriptions.SelectionWhenNothingResolves | azure-webapp-maven-plugin/src/main/java/com/microsoft/azure/maven/webapp/AbstractWebAppMojo.java:468-470 | with both ids blank and no single filter match, the target is the selection's outcome |
| Subscriptions.GetOrCreateAzureAppServiceClient | azure-webapp-maven-plugin/src/main/java/com/microsoft/azure/maven/webapp/AbstractWebAppMojo.java:423-454 | login failures propagate; a null credential gives a null client; the resolved id is checked before it becomes the credential's default and scopes the client, which is then empty or an account subscription |
| WebAppMojo.AbstractWebAppMojo.GetAppName | azure-webapp-maven-plugin/src/main/java/com/microsoft/azure/maven/webapp/AbstractWebAppMojo.java:280-282 | never null: the configured name, or the empty string |
| WebAppMojo.AbstractWebAppMojo.GetResources | azure-webapp-maven-plugin/src/main/java/com/microsoft/azure/maven/webapp/AbstractWebAppMojo.java:325-327 | never null: the configured resources, or the empty list |
| WebAppMojo.AbstractWebAppMojo.SetRuntime | azure-webapp-maven-plugin/src/main/java/com/microsoft/azure/maven/webapp/AbstractWebAppMojo.java:376-378 | sets the runtime field |
| WebAppMojo.AbstractWebAppMojo.GetRuntime | azure-webapp-maven-plugin/src/main/java/com/microsoft/azure/maven/webapp/AbstractWebAppMojo.java:364-370 | the first call stores the injected runtime and marks it injected; later calls return it unchanged; injection happens at most once |
| WebAppMojo.GetRuntimeTwice | azure-webapp-maven-plugin/src/main/java/com/microsoft/azure/maven/webapp/AbstractWebAppMojo.java:364-370 | two calls inject once and return the same injected runtime |
| WebAppMojo.RemoveAll | azure-webapp-maven-plugin/src/main/java/com/microsoft/azure/maven/webapp/AbstractWebAppMojo.java:522 | removing a pattern never lengthens the name, and an empty pattern changes nothing |
| WebAppMojo.RemoveAllAbsent | azure-webapp-maven-plugin/src/main/java/com/microsoft/azure/maven/webapp/AbstractWebAppMojo.java:522 | a name that does not contain the postfix is unchanged |
| WebAppMojo.AbstractWebAppMojo.GetDeploymentStagingDirectoryPath | azure-webapp-maven-plugin/src/main/java/com/microsoft/azure/maven/webapp/AbstractWebAppMojo.java:517-535 | the first call stores `<build dir>/<plugin name without postfix>/<app name>-<uuid>`; every later call returns the stored path |
| WebAppMojo.StagingPathStable | azure-webapp-maven-plugin/src/main/java/com/microsoft/azure/maven/webapp/AbstractWebAppMojo.java:517-535 | two calls return the same path, whatever UUIDs they draw |
| WebAppMojo.GetDeploymentSlot | azure-webapp-maven-plugin/src/main/java/com/microsoft/azure/maven/webapp/AbstractWebAppMojo.java:345-354 | a slot exactly when the name is non-empty and the app has it; a missing slot gives null |
| Reconcile.NewAppServicePlanName | azure-webapp-maven-plugin/src/main/java/com/microsoft/azure/maven/webapp/DeployMojo.java:167-170 | the new plan's name is never empty |
| Reconcile.ServicePlanResourceGroup | azure-webapp-maven-plugin/src/main/java/com/microsoft/azure/maven/webapp/DeployMojo.java:172-175 | the plan's resource group is empty only when both the plan group and the app group are |
| Reconcile.EnsureResourceGroup | azure-webapp-maven-plugin/src/main/java/com/microsoft/azure/maven/webapp/DeployMojo.java:136-146 | afterwards the group exists and is the only one added, existing groups keep their regions, and no plan, app or slot changes; the trace only grows |
| Reconcile.EnsureAppServicePlan | azure-webapp-maven-plugin/src/main/java/com/microsoft/azure/maven/webapp/DeployMojo.java:148-165 | success returns the looked-up plan, which then exists and is the only plan added; every existing plan is kept as it was; failure is the null-runtime error with nothing changed; groups, apps and slots untouched; the trace only grows |
| Reconcile.CreateApp | azure-webapp-maven-plugin/src/main/java/com/microsoft/azure/maven/webapp/DeployMojo.java:96-112 | fails exactly when no runtime is configured, changing nothing; otherwise the group and the app exist, and the app is bound to the looked-up plan (which exists) with the configured runtime, docker configuration and settings; only that group, plan and app are added, every existing group, plan and other app is kept as it was, and no slot changes; the trace only grows |
| Reconcile.UpdatePlan | azure-webapp-maven-plugin/src/main/java/com/microsoft/azure/maven/webapp/DeployMojo.java:117-124 | a plan it returns exists afterwards and is the only plan that may be added; an existing target plan changes at most in its tier (set when a tier is configured); every other plan is kept as it was; groups, apps and slots untouched; the trace only grows |
| Reconcile.UpdateApp | azure-webapp-maven-plugin/src/main/java/com/microsoft/azure/maven/webapp/DeployMojo.java:114-133 | failure changes nothing; success returns the app, bound to an existing plan, with each configured runtime, docker configuration and settings applied and the app's own kept where the configuration has none; no other app, no group and no slot changes, and every plan other than the update's target plan is kept as it was; the trace only grows |
| Reconcile.CreateSlot | azure-webapp-maven-plugin/src/main/java/com/microsoft/azure/maven/webapp/DeployMojo.java:177-185 | the slot exists afterwards with its parent's runtime, the configured configuration source and settings, and is the target; it is the only slot added and every other slot is kept as it was; apps, plans and groups untouched; the trace only grows |
| Reconcile.Reconciled | azure-webapp-maven-plugin/src/main/java/com/microsoft/azure/maven/webapp/DeployMojo.java:74-82 | reference definition of the dispatch; failure changes nothing, success leaves an existing target under an existing app |
| Reconcile.ServicePlanDefaults | azure-webapp-maven-plugin/src/main/java/com/microsoft/azure/maven/webapp/DeployMojo.java:167-175 | the plan name defaults to `asp-<app>` and the plan group to the app's group |
| Reconcile.ResourceGroupGetOrCreate | azure-webapp-maven-plugin/src/main/java/com/microsoft/azure/maven/webapp/DeployMojo.java:136-146 | a found group is returned and nothing is created; a missing one is created once in the configured region; a second call creates nothing |
| Reconcile.PlanGetOrCreate | azure-webapp-maven-plugin/src/main/java/com/microsoft/azure/maven/webapp/DeployMojo.java:148-165 | a found plan is left alone; a missing one is created with the configured region, tier and runtime OS and is the only change to the plans; a second call creates nothing; only a missing plan with a null runtime fails, changing nothing |
| Reconcile.UpdatePlanRule | azure-webapp-maven-plugin/src/main/java/com/microsoft/azure/maven/webapp/DeployMojo.java:114-124 | no plan name keeps the current plan; an existing target plan with a tier gets that tier, every other field and every other plan stay as they were, and no plan is created; a missing target plan goes through get-or-create |
| Reconcile.AppAfterCreate | azure-webapp-maven-plugin/src/main/java/com/microsoft/azure/maven/webapp/DeployMojo.java:96-112 | the calls are the group create (if missing), the plan create (if missing), then the app create; the new state is the old one plus that group, that plan and the configured app on the looked-up plan; slots untouched |
| Reconcile.AppAfterUpdate | azure-webapp-maven-plugin/src/main/java/com/microsoft/azure/maven/webapp/DeployMojo.java:114-133 | without a plan name an existing current plan is kept; with a plan name, or when the kept plan is gone, the app moves to the looked-up plan; no group changes, only the bound plan may be added, other plans are kept; the app update is the last call |
| Reconcile.ReconcileDispatch | azure-webapp-maven-plugin/src/main/java/com/microsoft/azure/maven/webapp/DeployMojo.java:74-82 | without a slot, an existing app takes only the update path and a missing app only the create path; with a slot under an existing app, an existing slot comes back unchanged with no call and a missing one is created, with one create call |
| Reconcile.FailuresChangeNothing | azure-webapp-maven-plugin/src/main/java/com/microsoft/azure/maven/webapp/DeployMojo.java:88-101 | a slot under a missing app, and an app to create without a runtime, fail before any remote change; every reconciliation failure leaves the state as it was |
| Reconcile.ReconciledTargetExists | azure-webapp-maven-plugin/src/main/java/com/microsoft/azure/maven/webapp/DeployMojo.java:96-133 | after success the target exists; an app is bound to an existing plan, the configured one when named |
| Reconcile.ReconcileExtendsTrace | azure-webapp-maven-plugin/src/main/java/com/microsoft/azure/maven/webapp/DeployMojo.java:74-82 | the call trace only grows (each transition it is made of states the same) |
| Reconcile.UpdateCreatesNothing | azure-webapp-maven-plugin/src/main/java/com/microsoft/azure/maven/webapp/DeployMojo.java:114-133 | updating an app whose target plan exists creates nothing and keeps the set of resources |
| Reconcile.ReconcileIdempotent | azure-webapp-maven-plugin/src/main/java/com/microsoft/azure/maven/webapp/DeployMojo.java:74-82 | a second reconciliation with the same configuration returns the same target, creates nothing and keeps the set of resources |
| Strategy.RunConcat | azure-webapp-maven-plugin/src/main/java/com/microsoft/azure/maven/webapp/DeployMojo.java:192-199 | running two step lists in sequence equals running their concatenation, stopping at the first failure |
| Strategy.RunWithoutFault | azure-webapp-maven-plugin/src/main/java/com/microsoft/azure/maven/webapp/DeployMojo.java:192-199 | without a failing step every call is issued in order and the run passes |
| Strategy.RunFailsAt | azure-webapp-maven-plugin/src/main/java/com/microsoft/azure/maven/webapp/DeployMojo.java:192-199 | a failing step's error is the run's error |
| Strategy.StagingTree | azure-webapp-maven-plugin/src/main/java/com/microsoft/azure/maven/webapp/DeployMojo.java:246-260 | artifact `i` is placed at the staging root when its path is empty, else at `<root>/<path>` |
| Strategy.DirectDeploys | azure-webapp-maven-plugin/src/main/java/com/microsoft/azure/maven/webapp/DeployMojo.java:224-227 | one step per artifact, none of them packaging |
| Strategy.DirectDeploysAt | azure-webapp-maven-plugin/src/main/java/com/microsoft/azure/maven/webapp/DeployMojo.java:224-227 | step `i` deploys artifact `i` with its own type and path, so the deploys follow list order |
| Strategy.ExternalResources | azure-webapp-maven-plugin/src/main/java/com/microsoft/azure/maven/webapp/DeployMojo.java:262-265 | exactly the resources the external-resource predicate keeps, no more of them than there are resources |
| Strategy.ExternalResourcesConcat | azure-webapp-maven-plugin/src/main/java/com/microsoft/azure/maven/webapp/DeployMojo.java:262-265 | the filter keeps list order: filtering a concatenation concatenates the filtered parts |
| Strategy.DockerIssuesNothing | azure-webapp-maven-plugin/src/main/java/com/microsoft/azure/maven/webapp/DeployMojo.java:188-191 | a Docker runtime issues no stop, deploy or start call and changes nothing |
| Strategy.SingleDeployType | azure-webapp-maven-plugin/src/main/java/com/microsoft/azure/maven/webapp/DeployMojo.java:219 | JBoss EAP 7.2 always gets EAR, and the artifact's own type is overridden on no other runtime |
| Strategy.ArtifactSteps | azure-webapp-maven-plugin/src/main/java/com/microsoft/azure/maven/webapp/DeployMojo.java:210-231 | at most one step per artifact, and packaging only in the zip fallback (two or more artifacts, not all WARs); its calls per strategy are in AllCallsOfArtifactSteps |
| Strategy.ZipSteps | azure-webapp-maven-plugin/src/main/java/com/microsoft/azure/maven/webapp/DeployMojo.java:233-244 | the staging directory is packaged, and every remote step is the zip deploy of the staging tree (renamed for JAVA_SE) to the target |
| Strategy.Deployed | azure-webapp-maven-plugin/src/main/java/com/microsoft/azure/maven/webapp/DeployMojo.java:187-203 | reference definition of `deploy`; it changes no resource and only appends to the trace |
| Strategy.StartIsLastCall | azure-webapp-maven-plugin/src/main/java/com/microsoft/azure/maven/webapp/DeployMojo.java:192-202 | on every exit path start is the last call and the only start, and nothing but the trace changes; a failed step's error propagates unless the start throws, whose error then wins |
| Strategy.DeployStepsCalls | azure-webapp-maven-plugin/src/main/java/com/microsoft/azure/maven/webapp/DeployMojo.java:192-199 | the calls of the `try` block are the stop (when configured), the artifact calls and the FTP push, in that order |
| Strategy.DeployWithoutFault | azure-webapp-maven-plugin/src/main/java/com/microsoft/azure/maven/webapp/DeployMojo.java:187-203 | without a fault: the stop (when configured), the artifact calls, the FTP push, then the start |
| Strategy.StopOnlyWhenConfigured | azure-webapp-maven-plugin/src/main/java/com/microsoft/azure/maven/webapp/DeployMojo.java:194-196 | a stop is issued, first, exactly when `stopAppDuringDeployment` is set |
| Strategy.AllCallsOfArtifactSteps | azure-webapp-maven-plugin/src/main/java/com/microsoft/azure/maven/webapp/DeployMojo.java:210-231 | no artifacts: no call; one: one deploy typed EAR on JBoss EAP 7.2, else the artifact's type; all WARs: one deploy each, in order; otherwise a single zip deploy |
| Strategy.ZipFallbackDeploysOnce | azure-webapp-maven-plugin/src/main/java/com/microsoft/azure/maven/webapp/DeployMojo.java:230-244 | the fallback issues exactly one zip deploy and no direct deploy; outside JAVA_SE the archive places each artifact at its staging folder |
| Deploy.DeployMojo.GetOrCreateResourceGroup | azure-webapp-maven-plugin/src/main/java/com/microsoft/azure/maven/webapp/DeployMojo.java:136-146 | carries out the resource-group get-or-create; the group exists afterwards |
| Deploy.DeployMojo.GetOrCreateAppServicePlan | azure-webapp-maven-plugin/src/main/java/com/microsoft/azure/maven/webapp/DeployMojo.java:148-165 | carries out the plan get-or-create |
| Deploy.DeployMojo.CreateWebApp | azure-webapp-maven-plugin/src/main/java/com/microsoft/azure/maven/webapp/DeployMojo.java:96-112 | equals CreateApp: no runtime fails first; otherwise (AppAfterCreate) group, then plan, then the app on the looked-up plan with the configured runtime, docker configuration and settings |
| Deploy.DeployMojo.UpdateWebApp | azure-webapp-maven-plugin/src/main/java/com/microsoft/azure/maven/webapp/DeployMojo.java:114-133 | equals UpdateApp: the plan rule (UpdatePlanRule, AppAfterUpdate), then the app is rebound with the configured runtime, docker configuration and settings |
| Deploy.DeployMojo.GetDeploymentSlot | azure-webapp-maven-plugin/src/main/java/com/microsoft/azure/maven/webapp/DeployMojo.java:88-94 | the slot handle exactly when the parent app exists, otherwise the does-not-exist error; no change |
| Deploy.DeployMojo.CreateDeploymentSlot | azure-webapp-maven-plugin/src/main/java/com/microsoft/azure/maven/webapp/DeployMojo.java:177-185 | equals CreateSlot: the slot is created with the configured configuration source and settings and its parent's runtime |
| Deploy.DeployMojo.UpdateDeploymentSlot | azure-webapp-maven-plugin/src/main/java/com/microsoft/azure/maven/webapp/DeployMojo.java:205-208 | the existing slot is returned as it is, with no call |
| Deploy.DeployMojo.CreateOrUpdateResource | azure-webapp-maven-plugin/src/main/java/com/microsoft/azure/maven/webapp/DeployMojo.java:74-82 | the state and result equal the reconciliation function |
| Deploy.DeployMojo.PrepareStagingDirectory | azure-webapp-maven-plugin/src/main/java/com/microsoft/azure/maven/webapp/DeployMojo.java:246-260 | fails with "Failed to package resources" exactly on an I/O failure; otherwise artifact `i` is staged at the root for an empty path, else at `<root>/<path>` |
| Deploy.DeployMojo.DeployArtifactsWithZipDeploy | azure-webapp-maven-plugin/src/main/java/com/microsoft/azure/maven/webapp/DeployMojo.java:233-244 | package, rename for JAVA_SE, then one zip deploy, stopping at a failure |
| Deploy.DeployMojo.DeployEach | azure-webapp-maven-plugin/src/main/java/com/microsoft/azure/maven/webapp/DeployMojo.java:224-227 | the per-WAR loop issues the direct deploys in order until one throws |
| Deploy.DeployMojo.DeployArtifacts | azure-webapp-maven-plugin/src/main/java/com/microsoft/azure/maven/webapp/DeployMojo.java:210-231 | carries out the artifact strategy the list and container select |
| Deploy.DeployMojo.DeployExternalResources | azure-webapp-maven-plugin/src/main/java/com/microsoft/azure/maven/webapp/DeployMojo.java:262-266 | one FTP push of the external resources of `<deployment>` |
| Deploy.DeployMojo.DeployArtifactsAndResources | azure-webapp-maven-plugin/src/main/java/com/microsoft/azure/maven/webapp/DeployMojo.java:197-198 | the artifacts, then the FTP push only if they passed, as the run of their steps |
| Deploy.DeployMojo.DeployInTry | azure-webapp-maven-plugin/src/main/java/com/microsoft/azure/maven/webapp/DeployMojo.java:192-199 | the `try` block equals the run of the deployment steps: stop when configured, the rest only after it passed |
| Deploy.DeployMojo.Deploy | azure-webapp-maven-plugin/src/main/java/com/microsoft/azure/maven/webapp/DeployMojo.java:187-203 | the try/finally equals the deployment function: Docker does nothing and reads no `<deployment>`; otherwise the steps run until one throws, then start follows, and a throwing start fails the deployment |
| Deploy.DeployMojo.DoExecute | azure-webapp-maven-plugin/src/main/java/com/microsoft/azure/maven/webapp/DeployMojo.java:64-72 | each client failure (login, target, subscription check) and each reconciliation failure is returned, leaving the remote state as it was; once the client resolves and reconciliation succeeds, the reconciled target is deployed to, exactly as the deployment function says |

## Left out

- Log output, telemetry, the host name in the success message, and the `USING_AZURE_ENVIRONMENT` notice: they do not affect the decisions.
- Configuration parsing and validation (`getWebAppConfig`, the V1/V2 parsers): the parsed `WebAppConfig` is an input. A null string in it is the empty string; the core tests these strings only with `isEmpty`, and where it passes one on as a value (the slot's configuration source, say) nothing in the model depends on null and empty differing.
- Authentication plumbing (`MavenAuthManager.login`, `AzureResourceManager.authenticate`, `AzureProfile`, `convertEnvironment`, the credential builder and token validation): only their outcomes are modelled (a credential, a failure, the account's subscriptions, a token verdict).
- `AzureEnvironmentUtils.setupAzureEnvironment`: a global side effect outside the retriever's result.
- The interactive prompt (`CustomTextIoStringListReader`): an oracle returning nothing or one of the options.
- Which subscription the remote state belongs to: `DoExecute` works on one `Cloud`, the one the scoped client reaches.
- Remote failures while reconciling (SDK exceptions from `commit()`/`create()`): only the configuration errors are modelled. Failures are modelled only in the deployment stage: a step of the `try` by the fault index, and the start of the `finally` by `startFails`.
- A slot is created with its parent app's runtime. Copying the configuration source's other settings is not modelled.
- On the update path a null runtime, docker configuration or app settings leaves the app's value as it is; the SDK's handling of nulls is not part of this model.
- Filesystem and packaging: the temporary directory, copying, `forceDeleteOnExit`, `ZipUtil.pack`, the temp zip name, `mkdirs`. Only the artifact-to-folder mapping is kept; an I/O failure is a boolean input.
- FTP transfer and the bodies of `isAllWarArtifacts`, `isExternalResource` and `prepareJavaSERuntimeJarArtifact`: uninterpreted parameters.
- Deploy.DeployMojo.DeployExternalResources: requires `<deployment>` to be set, because the code dereferences a null resource list otherwise.
- Deploy.DeployMojo.Deploy: requires `<deployment>` to be set unless the target is a Docker app (which returns before reading it), for the same reason.
- Deploy.DeployMojo.DoExecute: requires `<deployment>` to be set when the client resolves and reconciliation yields a non-Docker target, for the same reason.
- The double-checked `synchronized` block of `getDeploymentStagingDirectoryPath`: concurrency is out of scope; only the initialise-once behaviour is modelled.
- WebAppMojo.RemoveAll: `replaceAll` is read as literal removal. The plugin postfix holds no regular-expression metacharacters.
- WebAppMojo.JoinPath: `Paths.get` on a Unix file system, with no normalisation.
- Strategy.StagingFolder: `new File(root, path)` is a raw `root + "/" + path`, with no normalisation (a path of "/" or with "." or ".." segments is not collapsed).
- `selectSubscription`'s `SubscriptionOption2` ordering is given as an integer rank; the sort is a stable insertion sort by that rank, like Java's `sorted()`.
- AppServicePlanEntity (azure-toolkit-libs/azure-toolkit-appservice-lib/src/main/java/com/microsoft/azure/toolkits/appservice/entity/AppServicePlanEntity.java:15-22) contributes its fields to `ManagementPlane.AppServicePlan`; it has no behaviour.

## Notes on the source's behaviour

- `getOrCreateResourceGroup` creates the group on any `ManagementException` from the lookup, not only on "not found" (azure-webapp-maven-plugin/src/main/java/com/microsoft/azure/maven/webapp/DeployMojo.java:139). The model creates it whenever it is absent.
- `updateWebApp` sets the pricing tier of an existing target plan whenever a tier is configured, even when it equals the current one (azure-webapp-maven-plugin/src/main/java/com/microsoft/azure/maven/webapp/DeployMojo.java:122-123).
- On the update path, a missing plan with a null runtime dereferences the null runtime in `getOrCreateAppServicePlan` (azure-webapp-maven-plugin/src/main/java/com/microsoft/azure/maven/webapp/DeployMojo.java:160). The model returns the `NullRuntime` error and changes nothing.

=== FILE: auth.dfy ===
/**
 * The VS Code credential retriever of the authentication library: the one
 * source of the credential chain that refuses, rather than reconciles, a
 * cloud environment that differs from the configured one.
 */
module Auth {
  import opened Wrappers

  /** The cloud a credential is scoped to. Known clouds are singletons in
      the SDK, so equality of the Java objects is equality of these values.
      A custom cloud is compared here by its endpoint, while
      `Objects.equals` on `AzureEnvironment` compares identities: two
      distinct custom objects with the same endpoint conflict in the source
      but not in this model. */
  datatype AzureEnvironment = Azure | AzureChina | AzureGermany | AzureUsGovernment | Custom(managementEndpoint: string)

  datatype AuthMethod = AzureCli | ServicePrincipal | ManagedIdentity | VsCode | OAuth2 | DeviceCode

  /** `AzureCredentialWrapper`: the authenticated handle the chain produces.
      The token credential itself is opaque and not modelled. */
  datatype CredentialWrapper = CredentialWrapper(
    authMethod: AuthMethod,
    env: AzureEnvironment,
    defaultSubscriptionId: Option<string>,
    filteredSubscriptionIds: seq<string>)

  /** What the VS Code Azure Account extension stores: the cloud name and the
      subscriptions filtered in the editor. */
  datatype VsCodeProfile = VsCodeProfile(environment: string, filteredSubscriptions: seq<string>)

  /** How validating the freshly built token credential ends. */
  datatype TokenCheck = TokenValid | TokenInvalidConfiguration | TokenLoginFailure(message: string)

  /** `LoginFailureException`, by cause. */
  datatype LoginFailure =
    | ProfileUnavailable
    | EnvironmentConflict(fromVsCode: AzureEnvironment, configured: AzureEnvironment)
    | CredentialRejected(message: string)

  /** `checkAzureEnvironmentConflict`: fails exactly when both environments
      are set and differ. */
  function CheckAzureEnvironmentConflict(env: Option<AzureEnvironment>, envVsCode: Option<AzureEnvironment>): (r: Outcome<LoginFailure>)
    ensures r.Fail? <==> env.Some? && envVsCode.Some? && env.value != envVsCode.value
    ensures r.Fail? ==> r.error == EnvironmentConflict(envVsCode.value, env.value)
  {
    if env != None && envVsCode != None && env != envVsCode then
      Fail(EnvironmentConflict(envVsCode.value, env.value))
    else
      Pass
  }

  /** An unset environment on either side never conflicts, and the check is
      symmetric in which side fails it. */
  lemma NoConflictWithoutBothEnvironments(env: Option<AzureEnvironment>, envVsCode: Option<AzureEnvironment>)
    ensures env.None? || envVsCode.None? ==> CheckAzureEnvironmentConflict(env, envVsCode).Pass?
    ensures CheckAzureEnvironmentConflict(env, envVsCode).Fail? == CheckAzureEnvironmentConflict(envVsCode, env).Fail?
  {
  }

  class VisualStudioCodeCredentialRetriever {
    /** The environment configured by the user (the base class's `env`). */
    const env: Option<AzureEnvironment>
    /** The environment read from the VS Code profile, once `RetrieveInternal` ran. */
    var envFromVscode: Option<AzureEnvironment>

    constructor (env: Option<AzureEnvironment>)
      ensures this.env == env && envFromVscode.None?
    {
      this.env := env;
      envFromVscode := None;
    }

    /** `getAzureEnvironment`: the VS Code environment when known, the public
        cloud otherwise; never null. */
    function GetAzureEnvironment(): (e: AzureEnvironment)
      reads this
      ensures envFromVscode.Some? ==> e == envFromVscode.value
      ensures envFromVscode.None? ==> e == Azure
    {
      match envFromVscode
      case Some(v) => v
      case None => Azure
    }

    /**
     * `retrieveInternal`. The profile lookup (`getProfile`, which may fail
     * with an invalid-configuration error), the cloud-name parser
     * (`stringToAzureEnvironment`) and the validation of the built token
     * credential (`tokenCheck`) are outside the model and passed in.
     */
    method RetrieveInternal(
      getProfile: AzureEnvironment -> Option<VsCodeProfile>,
      stringToAzureEnvironment: string -> Option<AzureEnvironment>,
      tokenCheck: TokenCheck)
      returns (r: Result<CredentialWrapper, LoginFailure>)
      modifies this`envFromVscode
      // the lookup is made against the environment known before this call
      ensures getProfile(old(GetAzureEnvironment())).None? ==>
        r == Failure(ProfileUnavailable) && envFromVscode == old(envFromVscode)
      ensures getProfile(old(GetAzureEnvironment())).Some? ==>
        var profile := getProfile(old(GetAzureEnvironment())).value;
        && envFromVscode == stringToAzureEnvironment(profile.environment)
        && (CheckAzureEnvironmentConflict(env, envFromVscode).Fail? ==>
              r == Failure(CheckAzureEnvironmentConflict(env, envFromVscode).error))
        && (CheckAzureEnvironmentConflict(env, envFromVscode).Pass? ==>
              r == match tokenCheck
                   case TokenValid =>
                     Success(CredentialWrapper(VsCode, GetAzureEnvironment(), None, profile.filteredSubscriptions))
                   case TokenInvalidConfiguration => Failure(ProfileUnavailable)
                   case TokenLoginFailure(m) => Failure(CredentialRejected(m)))
      // a successful credential is scoped to the VS Code cloud, or to the public cloud
      ensures r.Success? ==> r.value.env == GetAzureEnvironment() && (Some(r.value.env) == envFromVscode || r.value.env == Azure)
      ensures r.Success? ==> CheckAzureEnvironmentConflict(env, envFromVscode).Pass?
    {
      var profile := getProfile(GetAzureEnvironment());
      if profile.None? {
        // InvalidConfigurationException is turned into a LoginFailureException
        return Failure(ProfileUnavailable);
      }
      envFromVscode := stringToAzureEnvironment(profile.value.environment);
      var conflict := CheckAzureEnvironmentConflict(env, envFromVscode);
      if conflict.Fail? {
        return Failure(conflict.error);
      }
      match tokenCheck {
        case TokenValid =>
          r := Success(CredentialWrapper(VsCode, GetAzureEnvironment(), None, profile.value.filteredSubscriptions));
        case TokenInvalidConfiguration =>
          r := Failure(ProfileUnavailable);
        case TokenLoginFailure(m) =>
          r := Failure(CredentialRejected(m));
      }
    }
  }

  /** On a fresh retriever the profile is looked up against the public cloud. */
  method FreshRetrieverLooksUpPublicCloud(
    configured: Option<AzureEnvironment>,
    getProfile: AzureEnvironment -> Option<VsCodeProfile>,
    stringToAzureEnvironment: string -> Option<AzureEnvironment>,
    tokenCheck: TokenCheck)
    returns (r: Result<CredentialWrapper, LoginFailure>)
    ensures getProfile(Azure).None? ==> r == Failure(ProfileUnavailable)
    ensures getProfile(Azure).Some? ==>
      var fromVsCode := stringToAzureEnvironment(getProfile(Azure).value.environment);
      (configured.Some? && fromVsCode.Some? && configured != fromVsCode <==> r.Failure? && r.error.EnvironmentConflict?)
    ensures r.Success? ==> r.value.filteredSubscriptionIds == getProfile(Azure).value.filteredSubscriptions
  {
    var retriever := new VisualStudioCodeCredentialRetriever(configured);
    r := retriever.RetrieveInternal(getProfile, stringToAzureEnvironment, tokenCheck);
  }
}

=== FILE: cloud.dfy ===
/**
 * The remote management plane as an abstract state: resource groups, app
 * service plans keyed by (resource group, name), web apps, deployment
 * slots, and the append-only trace of the remote calls that change them or
 * the running application.
 */
module ManagementPlane {
  import opened Wrappers

  datatype OperatingSystem = Windows | Linux | Docker

  datatype WebContainer = JavaSE | JBoss72 | Tomcat(version: string) | Jetty(version: string) | OtherContainer(name: string)

  /** The runtime descriptor of an app; the web container is null for Docker. */
  datatype Runtime = Runtime(operatingSystem: OperatingSystem, webContainer: Option<WebContainer>, javaVersion: string)

  datatype DockerConfiguration = DockerConfiguration(image: string, registryUrl: string, userName: string, password: string)

  datatype DeployType = War | Jar | Ear | Zip | Script | Static | Startup | Lib

  /** `WebAppArtifact`: a file, how to deploy it, and where it goes in the app. */
  datatype Artifact = Artifact(file: string, deployType: DeployType, path: string)

  /** A Maven `<resource>` of the `<deployment>` element. */
  datatype Resource = Resource(directory: string, targetPath: string, includes: seq<string>)

  /**
   * `WebAppConfig`, the normalised configuration the parsers build. A string
   * the parsers leave null is the empty string here. The core tests these
   * strings only with `StringUtils.isEmpty`, which does not tell the two
   * apart; where it passes one on as a value, nothing modelled here
   * depends on null and empty differing.
   */
  datatype WebAppConfig = WebAppConfig(
    resourceGroup: string,
    appName: string,
    region: string,
    pricingTier: Option<string>,
    servicePlanName: string,
    servicePlanResourceGroup: string,
    runtime: Option<Runtime>,
    dockerConfiguration: Option<DockerConfiguration>,
    appSettings: Option<map<string, string>>,
    deploymentSlotName: string,
    deploymentSlotConfigurationSource: string,
    webAppArtifacts: seq<Artifact>)

  datatype PlanKey = PlanKey(resourceGroup: string, name: string)
  datatype AppKey = AppKey(resourceGroup: string, name: string)
  datatype SlotKey = SlotKey(app: AppKey, name: string)

  /** `AppServicePlanEntity`; its id is its key. */
  datatype AppServicePlan = AppServicePlan(
    id: PlanKey, name: string, region: string, resourceGroup: string,
    pricingTier: Option<string>, operatingSystem: OperatingSystem)

  datatype WebApp = WebApp(
    name: string, resourceGroup: string, plan: PlanKey, runtime: Runtime,
    dockerConfiguration: Option<DockerConfiguration>, appSettings: map<string, string>)

  datatype DeploymentSlot = DeploymentSlot(
    name: string, configurationSource: string, appSettings: map<string, string>, runtime: Runtime)

  /** `IAppService`: what deployment acts on, an app or one of its slots. */
  datatype Target = AppTarget(app: AppKey) | SlotTarget(slot: SlotKey)

  /** Where one artifact lands in the staging directory that is zipped. */
  datatype Staged = Staged(folder: string, file: string)

  /** The remote calls the core issues, in the order it issues them. */
  datatype Call =
    | CreateResourceGroup(name: string, region: string)
    | CreateAppServicePlan(plan: PlanKey)
    | UpdatePricingTier(plan: PlanKey, tier: string)
    | CreateWebApp(app: AppKey)
    | UpdateWebApp(app: AppKey)
    | CreateDeploymentSlot(slot: SlotKey)
    | StopApp(target: Target)
    | StartApp(target: Target)
    | DeployFile(target: Target, deployType: DeployType, file: string, path: string)
    | ZipDeploy(target: Target, archive: seq<Staged>)
    | FtpUpload(target: Target, resources: seq<Resource>)

  predicate IsCreation(call: Call)
  {
    call.CreateResourceGroup? || call.CreateAppServicePlan? || call.CreateWebApp? || call.CreateDeploymentSlot?
  }

  datatype Cloud = Cloud(
    resourceGroups: map<string, string>,   // name to region
    plans: map<PlanKey, AppServicePlan>,
    webApps: map<AppKey, WebApp>,
    slots: map<SlotKey, DeploymentSlot>,
    trace: seq<Call>)

  predicate TargetExists(c: Cloud, t: Target)
  {
    match t
    case AppTarget(k) => k in c.webApps
    case SlotTarget(k) => k in c.slots
  }

  /** `target.getRuntime()`. */
  function TargetRuntime(c: Cloud, t: Target): Runtime
    requires TargetExists(c, t)
  {
    match t
    case AppTarget(k) => c.webApps[k].runtime
    case SlotTarget(k) => c.slots[k].runtime
  }
}

=== FILE: deploy_mojo.dfy ===
/**
 * `DeployMojo`: resolve the client, reconcile the configured app or slot
 * with the management plane, then deploy to it. The remote state lives in
 * the `cloud` field; each method changes it as the corresponding
 * transition of `Reconcile` or `Strategy` says.
 */
module Deploy {
  import opened Wrappers
  import opened Auth
  import opened Subscriptions
  import opened ManagementPlane
  import opened Reconcile
  import opened Strategy

  /** Why `doExecute` stops. */
  datatype ExecutionError =
    | ClientFailed(error: SubscriptionError)   // `getOrCreateAzureAppServiceClient` threw
    | NullClient                               // no credential: the null client is dereferenced
    | ReconcileFailed(cause: ReconcileError)
    | DeployFailed(failure: DeployError)

  class DeployMojo {
    /** The remote state of the subscription the client is scoped to. */
    var cloud: Cloud
    /** `isStopAppDuringDeployment()`. */
    const stopAppDuringDeployment: bool
    /** The resources of the `<deployment>` element; `None` when it is unset. */
    const deployment: Option<seq<Resource>>

    constructor (cloud: Cloud, stopAppDuringDeployment: bool, deployment: Option<seq<Resource>>)
      ensures this.cloud == cloud
      ensures this.stopAppDuringDeployment == stopAppDuringDeployment && this.deployment == deployment
    {
      this.cloud := cloud;
      this.stopAppDuringDeployment := stopAppDuringDeployment;
      this.deployment := deployment;
    }

    //----------------------------------------------------------------------
    // Reconciliation
    //----------------------------------------------------------------------

    method GetOrCreateResourceGroup(config: WebAppConfig)
      modifies this`cloud
      ensures cloud == EnsureResourceGroup(old(cloud), config)
      ensures config.resourceGroup in cloud.resourceGroups
    {
      if config.resourceGroup !in cloud.resourceGroups {
        cloud := cloud.(resourceGroups := cloud.resourceGroups[config.resourceGroup := config.region]);
        cloud := cloud.(trace := cloud.trace + [CreateResourceGroup(config.resourceGroup, config.region)]);
      }
    }

    method GetOrCreateAppServicePlan(config: WebAppConfig) returns (r: Result<PlanKey, ReconcileError>)
      modifies this`cloud
      ensures Transition(cloud, r) == EnsureAppServicePlan(old(cloud), config)
    {
      var servicePlanName := NewAppServicePlanName(config);
      var servicePlanGroup := ServicePlanResourceGroup(config);
      var key := PlanKey(servicePlanGroup, servicePlanName);
      if key !in cloud.plans {
        if config.runtime.None? {
          return Failure(NullRuntime);
        }
        var plan := AppServicePlan(key, servicePlanName, config.region, servicePlanGroup, config.pricingTier,
                                   config.runtime.value.operatingSystem);
        cloud := cloud.(plans := cloud.plans[key := plan], trace := cloud.trace + [CreateAppServicePlan(key)]);
      }
      r := Success(key);
    }

    method CreateWebApp(config: WebAppConfig) returns (r: Result<Target, ReconcileError>)
      modifies this`cloud
      ensures Transition(cloud, r) == CreateApp(old(cloud), config)
    {
      if config.runtime.None? {
        return Failure(NoRuntimeConfig);
      }
      GetOrCreateResourceGroup(config);
      var plan := GetOrCreateAppServicePlan(config);
      // with a runtime configured, get-or-create cannot fail
      var key := AppKeyOf(config);
      var app := WebApp(config.appName, config.resourceGroup, plan.value, config.runtime.value,
                        config.dockerConfiguration, SettingsOrEmpty(config.appSettings));
      cloud := cloud.(webApps := cloud.webApps[key := app], trace := cloud.trace + [Call.CreateWebApp(key)]);
      r := Success(AppTarget(key));
    }

    method UpdateWebApp(config: WebAppConfig) returns (r: Result<Target, ReconcileError>)
      requires AppKeyOf(config) in cloud.webApps
      modifies this`cloud
      ensures Transition(cloud, r) == UpdateApp(old(cloud), config)
    {
      var key := AppKeyOf(config);
      var webApp := cloud.webApps[key];
      var targetServicePlan := if config.servicePlanName == "" then webApp.plan
                               else PlanKey(ServicePlanResourceGroup(config), config.servicePlanName);
      if targetServicePlan !in cloud.plans {
        var created := GetOrCreateAppServicePlan(config);
        if created.Failure? {
          return Failure(created.error);
        }
        targetServicePlan := created.value;
      } else if config.pricingTier.Some? {
        var plan := cloud.plans[targetServicePlan];
        cloud := cloud.(plans := cloud.plans[targetServicePlan := plan.(pricingTier := config.pricingTier)],
                        trace := cloud.trace + [UpdatePricingTier(targetServicePlan, config.pricingTier.value)]);
      }
      cloud := cloud.(webApps := cloud.webApps[key := UpdatedApp(webApp, targetServicePlan, config)],
                      trace := cloud.trace + [Call.UpdateWebApp(key)]);
      r := Success(AppTarget(key));
    }

    /** `getDeploymentSlot`: the slot handle under an existing app; a missing
        app is an error. Nothing changes. */
    method GetDeploymentSlot(config: WebAppConfig) returns (r: Result<SlotKey, ReconcileError>)
      ensures r.Success? <==> AppKeyOf(config) in cloud.webApps
      ensures r.Success? ==> r.value.app == AppKeyOf(config) && r.value.name == config.deploymentSlotName
      ensures r.Failure? ==> r.error == WebAppNotExistForSlot
    {
      if AppKeyOf(config) !in cloud.webApps {
        return Failure(WebAppNotExistForSlot);
      }
      r := Success(SlotKey(AppKeyOf(config), config.deploymentSlotName));
    }

    method CreateDeploymentSlot(config: WebAppConfig) returns (r: Target)
      requires AppKeyOf(config) in cloud.webApps
      modifies this`cloud
      ensures Transition(cloud, Success(r)) == CreateSlot(old(cloud), config)
    {
      var key := SlotKeyOf(config);
      var slot := DeploymentSlot(config.deploymentSlotName, config.deploymentSlotConfigurationSource,
                                 SettingsOrEmpty(config.appSettings), cloud.webApps[AppKeyOf(config)].runtime);
      cloud := cloud.(slots := cloud.slots[key := slot], trace := cloud.trace + [Call.CreateDeploymentSlot(key)]);
      r := SlotTarget(key);
    }

    /** `updateDeploymentSlot` leaves an existing slot as it is and issues no call. */
    method UpdateDeploymentSlot(slot: SlotKey) returns (r: Target)
      requires slot in cloud.slots
      ensures r == SlotTarget(slot) && TargetExists(cloud, r)
    {
      r := SlotTarget(slot);
    }

    method CreateOrUpdateResource(config: WebAppConfig) returns (r: Result<Target, ReconcileError>)
      modifies this`cloud
      ensures Transition(cloud, r) == Reconciled(old(cloud), config)
    {
      if config.deploymentSlotName == "" {
        if AppKeyOf(config) in cloud.webApps {
          r := UpdateWebApp(config);
        } else {
          r := CreateWebApp(config);
        }
      } else {
        var slot := GetDeploymentSlot(config);
        if slot.Failure? {
          return Failure(slot.error);
        }
        var t: Target;
        if slot.value in cloud.slots {
          t := UpdateDeploymentSlot(slot.value);
        } else {
          t := CreateDeploymentSlot(config);
        }
        r := Success(t);
      }
    }

    //----------------------------------------------------------------------
    // Deployment
    //----------------------------------------------------------------------

    /** Carries out step `k`, which throws when `failAt` names it. */
    method Perform(step: Step, k: nat, failAt: Option<nat>) returns (outcome: Outcome<DeployError>)
      modifies this`cloud
      ensures cloud == Apply(old(cloud), Run([step], k, failAt))
      ensures outcome == Run([step], k, failAt).outcome
    {
      if step.Remote? {
        cloud := cloud.(trace := cloud.trace + [step.call]);
      }
      outcome := if failAt == Some(k) then Fail(ErrorOf(step)) else Pass;
    }

    /**
     * `prepareStagingDirectory`: artifact `i` is copied into the staging
     * root when its path is empty, and into `<root>/<path>` otherwise. An
     * I/O failure (`ioFails`) gives "Failed to package resources".
     */
    static method PrepareStagingDirectory(root: string, artifacts: seq<Artifact>, ioFails: bool)
      returns (r: Result<seq<Staged>, DeployError>)
      ensures r.Failure? <==> ioFails
      ensures r.Failure? ==> r.error == PackagingFailed
      ensures r.Success? ==> |r.value| == |artifacts|
      ensures r.Success? ==> forall i :: 0 <= i < |artifacts| ==>
        r.value[i].file == artifacts[i].file &&
        (artifacts[i].path == "" ==> r.value[i].folder == root) &&
        (artifacts[i].path != "" ==> r.value[i].folder == root + "/" + artifacts[i].path)
    {
      if ioFails {
        return Failure(PackagingFailed);
      }
      var staged: seq<Staged> := [];
      for i := 0 to |artifacts|
        invariant |staged| == i
        invariant forall j :: 0 <= j < i ==> staged[j] == Staged(StagingFolder(root, artifacts[j].path), artifacts[j].file)
      {
        var targetFolder := if artifacts[i].path == "" then root else root + "/" + artifacts[i].path;
        staged := staged + [Staged(targetFolder, artifacts[i].file)];
      }
      r := Success(staged);
    }

    method DeployArtifactsWithZipDeploy(t: Target, runtime: Runtime, root: string, artifacts: seq<Artifact>,
                                        javaSeRename: seq<Staged> -> seq<Staged>, k: nat, failAt: Option<nat>)
      returns (outcome: Outcome<DeployError>, next: nat)
      modifies this`cloud
      ensures var run := Run(ZipSteps(t, runtime, root, artifacts, javaSeRename), k, failAt);
        cloud == Apply(old(cloud), run) && outcome == run.outcome
      ensures next == k + |ZipSteps(t, runtime, root, artifacts, javaSeRename)|
    {
      next := k + 2;
      var stagingDirectory := PrepareStagingDirectory(root, artifacts, failAt == Some(k));
      if stagingDirectory.Failure? {
        return Fail(stagingDirectory.error), next;
      }
      var files := stagingDirectory.value;
      assert files == StagingTree(root, artifacts);
      if runtime.webContainer == Some(JavaSE) {
        files := javaSeRename(files);
      }
      outcome := Perform(Remote(ZipDeploy(t, files)), k + 1, failAt);
    }

    /** Deploys every artifact with its own type and path, in list order,
        until one throws. */
    method DeployEach(t: Target, artifacts: seq<Artifact>, k: nat, failAt: Option<nat>) returns (outcome: Outcome<DeployError>)
      modifies this`cloud
      ensures var run := Run(DirectDeploys(t, artifacts), k, failAt);
        cloud == Apply(old(cloud), run) && outcome == run.outcome
    {
      ghost var c0 := cloud;
      outcome := Pass;
      var i := 0;
      while i < |artifacts| && outcome.Pass?
        invariant 0 <= i <= |artifacts|
        invariant cloud == Apply(c0, Run(DirectDeploys(t, artifacts[..i]), k, failAt))
        invariant outcome == Run(DirectDeploys(t, artifacts[..i]), k, failAt).outcome
      {
        var resource := artifacts[i];
        DirectDeployStep(c0, t, artifacts, i, k, failAt);
        outcome := Perform(Remote(DeployFile(t, resource.deployType, resource.file, resource.path)), k + i, failAt);
        i := i + 1;
      }
      DirectDeploysDone(c0, t, artifacts, i, k, failAt);
    }

    method DeployArtifacts(t: Target, runtime: Runtime, artifacts: seq<Artifact>, isAllWarArtifacts: seq<Artifact> -> bool,
                           root: string, javaSeRename: seq<Staged> -> seq<Staged>, k: nat, failAt: Option<nat>)
      returns (outcome: Outcome<DeployError>, next: nat)
      modifies this`cloud
      ensures var run := Run(ArtifactSteps(t, runtime, artifacts, isAllWarArtifacts, root, javaSeRename), k, failAt);
        cloud == Apply(old(cloud), run) && outcome == run.outcome
      ensures next == k + |ArtifactSteps(t, runtime, artifacts, isAllWarArtifacts, root, javaSeRename)|
    {
      if |artifacts| == 0 {
        return Pass, k;
      }
      if |artifacts| == 1 {
        var artifact := artifacts[0];
        var deployType := if runtime.webContainer == Some(JBoss72) then Ear else artifact.deployType;
        outcome := Perform(Remote(DeployFile(t, deployType, artifact.file, artifact.path)), k, failAt);
        return outcome, k + 1;
      }
      if isAllWarArtifacts(artifacts) {
        outcome := DeployEach(t, artifacts, k, failAt);
        return outcome, k + |artifacts|;
      }
      outcome, next := DeployArtifactsWithZipDeploy(t, runtime, root, artifacts, javaSeRename, k, failAt);
    }

    method DeployExternalResources(t: Target, isExternalResource: Resource -> bool, k: nat, failAt: Option<nat>)
      returns (outcome: Outcome<DeployError>)
      requires deployment.Some?
      modifies this`cloud
      ensures var run := Run([Remote(FtpUpload(t, ExternalResources(deployment.value, isExternalResource)))], k, failAt);
        cloud == Apply(old(cloud), run) && outcome == run.outcome
    {
      var externalResources := ExternalResources(deployment.value, isExternalResource);
      outcome := Perform(Remote(FtpUpload(t, externalResources)), k, failAt);
    }

    /** The resources of `<deployment>`, as far as a deployment that never
        reaches the FTP step is concerned. */
    function DeploymentResources(): seq<Resource>
    {
      if deployment.Some? then deployment.value else []
    }

    /** The artifacts and the external resources of the `try` block of
        `deploy`, numbered from `k`; the FTP push only after the artifacts
        passed. */
    method DeployArtifactsAndResources(t: Target, runtime: Runtime, artifacts: seq<Artifact>,
                                       isAllWarArtifacts: seq<Artifact> -> bool, root: string,
                                       javaSeRename: seq<Staged> -> seq<Staged>, isExternalResource: Resource -> bool,
                                       k: nat, failAt: Option<nat>)
      returns (outcome: Outcome<DeployError>)
      requires deployment.Some?
      modifies this`cloud
      ensures var run := Run(ArtifactSteps(t, runtime, artifacts, isAllWarArtifacts, root, javaSeRename)
                             + [Remote(FtpUpload(t, ExternalResources(deployment.value, isExternalResource)))], k, failAt);
        cloud == Apply(old(cloud), run) && outcome == run.outcome
    {
      RunThen(cloud, ArtifactSteps(t, runtime, artifacts, isAllWarArtifacts, root, javaSeRename),
              [Remote(FtpUpload(t, ExternalResources(deployment.value, isExternalResource)))], k, failAt);
      var next;
      outcome, next := DeployArtifacts(t, runtime, artifacts, isAllWarArtifacts, root, javaSeRename, k, failAt);
      if outcome.Pass? {
        outcome := DeployExternalResources(t, isExternalResource, next, failAt);
      }
    }

    /** The `try` block of `deploy`: stop (when configured), then artifacts
        and external resources, each only after the previous one passed. */
    method DeployInTry(t: Target, runtime: Runtime, artifacts: seq<Artifact>, isAllWarArtifacts: seq<Artifact> -> bool,
                       root: string, javaSeRename: seq<Staged> -> seq<Staged>, isExternalResource: Resource -> bool,
                       failAt: Option<nat>)
      returns (outcome: Outcome<DeployError>)
      requires deployment.Some?
      modifies this`cloud
      ensures var run := Run(DeploySteps(t, runtime, stopAppDuringDeployment, artifacts, isAllWarArtifacts, root, javaSeRename,
                                         deployment.value, isExternalResource), 0, failAt);
        cloud == Apply(old(cloud), run) && outcome == run.outcome
    {
      ghost var stopSteps := StopSteps(t, stopAppDuringDeployment);
      ghost var rest := ArtifactSteps(t, runtime, artifacts, isAllWarArtifacts, root, javaSeRename)
                        + [Remote(FtpUpload(t, ExternalResources(deployment.value, isExternalResource)))];
      assert DeploySteps(t, runtime, stopAppDuringDeployment, artifacts, isAllWarArtifacts, root, javaSeRename,
                         deployment.value, isExternalResource) == stopSteps + rest;
      RunThen(cloud, stopSteps, rest, 0, failAt);
      outcome := Pass;
      var k := 0;
      if stopAppDuringDeployment {
        outcome := Perform(Remote(StopApp(t)), 0, failAt);
        k := 1;
      }
      if outcome.Pass? {
        outcome := DeployArtifactsAndResources(t, runtime, artifacts, isAllWarArtifacts, root, javaSeRename,
                                               isExternalResource, k, failAt);
      }
    }

    /** `deploy`: the `try` block, then the start of its `finally`, which
        throws when `startFails`. A Docker target returns before
        `<deployment>` is read. */
    method Deploy(t: Target, artifacts: seq<Artifact>, isAllWarArtifacts: seq<Artifact> -> bool, root: string,
                  javaSeRename: seq<Staged> -> seq<Staged>, isExternalResource: Resource -> bool, failAt: Option<nat>,
                  startFails: bool)
      returns (outcome: Outcome<DeployError>)
      requires TargetExists(cloud, t)
      requires deployment.Some? || TargetRuntime(cloud, t).operatingSystem == Docker
      modifies this`cloud
      ensures (cloud, outcome) == Deployed(old(cloud), t, stopAppDuringDeployment, artifacts, isAllWarArtifacts, root,
                                           javaSeRename, DeploymentResources(), isExternalResource, failAt, startFails)
    {
      var runtime := TargetRuntime(cloud, t);
      if runtime.operatingSystem == Docker {
        return Pass;
      }
      outcome := DeployInTry(t, runtime, artifacts, isAllWarArtifacts, root, javaSeRename, isExternalResource, failAt);
      cloud := cloud.(trace := cloud.trace + [StartApp(t)]);
      if startFails {
        outcome := Fail(RemoteCallFailed(StartApp(t)));
      }
    }

    /**
     * `doExecute`: resolve the client, reconcile, deploy. A failure before
     * deployment leaves the remote state as it was; once the client resolves
     * and reconciliation succeeds, the reconciled target is deployed to.
     * `<deployment>` must be set only when that target is not a Docker app.
     */
    method DoExecute(login: Result<Option<CredentialWrapper>, LoginFailure>, configuredId: Option<string>,
                     subscriptions: seq<Subscription>, intersectIgnoreCase: (seq<string>, seq<string>) -> seq<string>,
                     rank: Subscription -> int, prompt: Prompt, config: WebAppConfig,
                     isAllWarArtifacts: seq<Artifact> -> bool, root: string, javaSeRename: seq<Staged> -> seq<Staged>,
                     isExternalResource: Resource -> bool, failAt: Option<nat>, startFails: bool)
      returns (r: Outcome<ExecutionError>)
      requires AnswersFromOptions(prompt)
      requires deployment.Some? || !ClientResolves(login, configuredId, subscriptions, intersectIgnoreCase, rank, prompt)
                                || !ReachesFtpStep(cloud, config)
      modifies this`cloud
      // the client stage
      ensures login.Failure? ==> r == Fail(ClientFailed(LoginFailed(login.error)))
      ensures login == Success(None) ==> r == Fail(NullClient)
      ensures login.Success? && login.value.Some? ==>
        var target := TargetSubscriptionId(configuredId, login.value.value, subscriptions, intersectIgnoreCase, rank, prompt);
        && (target.Failure? ==> r == Fail(ClientFailed(target.error)))
        && (target.Success? && CheckSubscription(subscriptions, Some(target.value)).Fail? ==>
              r == Fail(ClientFailed(SubscriptionNotFound(target.value))))
      // the reconciliation stage
      ensures ClientResolves(login, configuredId, subscriptions, intersectIgnoreCase, rank, prompt) ==>
        var reconciled := Reconciled(old(cloud), config);
        && (reconciled.result.Failure? ==> r == Fail(ReconcileFailed(reconciled.result.error)))
        && (reconciled.result.Success? ==> r.Pass? || r.error.DeployFailed?)
      ensures r.Fail? && !r.error.DeployFailed? ==> cloud == old(cloud)
      // the deployment stage
      ensures r.Pass? || r.error.DeployFailed? ==>
        && ClientResolves(login, configuredId, subscriptions, intersectIgnoreCase, rank, prompt)
        && Reconciled(old(cloud), config).result.Success?
        && var reconciled := Reconciled(old(cloud), config);
           (cloud, if r.Pass? then Pass else Fail(r.error.failure)) ==
             Deployed(reconciled.cloud, reconciled.result.value, stopAppDuringDeployment, config.webAppArtifacts,
                      isAllWarArtifacts, root, javaSeRename, DeploymentResources(), isExternalResource, failAt, startFails)
    {
      var az := GetOrCreateAzureAppServiceClient(login, configuredId, subscriptions, intersectIgnoreCase, rank, prompt);
      if az.Failure? {
        return Fail(ClientFailed(az.error));
      }
      if az.value.None? {
        return Fail(NullClient);
      }
      ghost var c0 := cloud;
      FailuresChangeNothing(c0, config);
      var target := CreateOrUpdateResource(config);
      if target.Failure? {
        return Fail(ReconcileFailed(target.error));
      }
      ReconciledTargetExists(c0, config);
      var deployed := Deploy(target.value, config.webAppArtifacts, isAllWarArtifacts, root, javaSeRename,
                             isExternalResource, failAt, startFails);
      r := if deployed.Pass? then Pass else Fail(DeployFailed(deployed.error));
    }
  }

  /** `getOrCreateAzureAppServiceClient` returns a client: a credential came
      back, and the target subscription resolves and belongs to the account. */
  ghost predicate ClientResolves(login: Result<Option<CredentialWrapper>, LoginFailure>, configuredId: Option<string>,
                                 subscriptions: seq<Subscription>, intersectIgnoreCase: (seq<string>, seq<string>) -> seq<string>,
                                 rank: Subscription -> int, prompt: Prompt)
    requires AnswersFromOptions(prompt)
  {
    && login.Success? && login.value.Some?
    && var target := TargetSubscriptionId(configuredId, login.value.value, subscriptions, intersectIgnoreCase, rank, prompt);
       target.Success? && CheckSubscription(subscriptions, Some(target.value)).Pass?
  }

  /** Reconciliation yields a target that is not a Docker app, so deployment
      goes on to the FTP step, which reads `<deployment>`. */
  ghost predicate ReachesFtpStep(c: Cloud, config: WebAppConfig)
  {
    var t := Reconciled(c, config);
    t.result.Success? && TargetExists(t.cloud, t.result.value) && TargetRuntime(t.cloud, t.result.value).operatingSystem != Docker
  }
}

=== FILE: jstrings.dfy ===
/**
 * The string tests of Apache Commons Lang that the core relies on, over a
 * Java `String` that may be null (`None`).
 */
module JavaStrings {
  import opened Wrappers

  /** `Character.isWhitespace`: the Unicode space, line and paragraph
      separators other than the non-breaking ones, plus the ASCII controls
      TAB, LF, VT, FF, CR and FS, GS, RS, US. */
  predicate IsWhitespace(ch: char)
  {
    var c := ch as int;
    (9 <= c <= 13) || (28 <= c <= 32) || c == 0x1680 ||
    (0x2000 <= c <= 0x2006) || (0x2008 <= c <= 0x200A) ||
    c == 0x2028 || c == 0x2029 || c == 0x205F || c == 0x3000
  }

  /** `StringUtils.isEmpty`: null or of length zero. */
  predicate IsEmpty(s: Option<string>)
  {
    s.None? || s.value == ""
  }

  /** `StringUtils.isBlank`: null, or made of whitespace only. */
  predicate IsBlank(s: Option<string>)
  {
    s.None? || forall i :: 0 <= i < |s.value| ==> IsWhitespace(s.value[i])
  }

  /** `StringUtils.firstNonBlank(a, b)`: the first argument that is not
      blank, or null when both are. */
  function FirstNonBlank(a: Option<string>, b: Option<string>): (r: Option<string>)
    ensures !IsBlank(a) ==> r == a
    ensures IsBlank(a) && !IsBlank(b) ==> r == b
    ensures IsBlank(a) && IsBlank(b) ==> r.None?
  {
    if !IsBlank(a) then a else if !IsBlank(b) then b else None
  }
}

=== FILE: reconcile.dfy ===
/**
 * Reconciliation of the configured app (or slot) against the management
 * plane, as transitions of the abstract remote state. The `DeployMojo`
 * class carries out the same transitions step by step.
 */
module Reconcile {
  import opened Wrappers
  import opened ManagementPlane

  /** The configuration errors of reconciliation. */
  datatype ReconcileError =
    | NoRuntimeConfig          // creating an app without a runtime
    | WebAppNotExistForSlot    // a slot under a missing app
    | NullRuntime              // a plan to create for an app whose runtime is null

  /** A transition: the remote state afterwards and what the call returned. */
  datatype Transition<T> = Transition(cloud: Cloud, result: Result<T, ReconcileError>)

  function AppKeyOf(config: WebAppConfig): AppKey
  {
    AppKey(config.resourceGroup, config.appName)
  }

  /** `getNewAppServicePlanName`. */
  function NewAppServicePlanName(config: WebAppConfig): (name: string)
    ensures name != ""
  {
    if config.servicePlanName == "" then "asp-" + config.appName else config.servicePlanName
  }

  /** `getServicePlanResourceGroup`. */
  function ServicePlanResourceGroup(config: WebAppConfig): (group: string)
    ensures group != "" <==> config.servicePlanResourceGroup != "" || config.resourceGroup != ""
  {
    if config.servicePlanResourceGroup == "" then config.resourceGroup else config.servicePlanResourceGroup
  }

  /** The plan `getOrCreateAppServicePlan` looks up. */
  function ServicePlanKey(config: WebAppConfig): PlanKey
  {
    PlanKey(ServicePlanResourceGroup(config), if config.servicePlanName == "" then NewAppServicePlanName(config) else config.servicePlanName)
  }

  /** The plan name defaults to `asp-<app name>` and its resource group to the app's. */
  lemma ServicePlanDefaults(config: WebAppConfig)
    ensures config.servicePlanName == "" ==> ServicePlanKey(config).name == "asp-" + config.appName
    ensures config.servicePlanName != "" ==> ServicePlanKey(config).name == config.servicePlanName
    ensures config.servicePlanResourceGroup == "" ==> ServicePlanKey(config).resourceGroup == config.resourceGroup
    ensures config.servicePlanResourceGroup != "" ==> ServicePlanKey(config).resourceGroup == config.servicePlanResourceGroup
  {
  }

  function SettingsOrEmpty(settings: Option<map<string, string>>): map<string, string>
  {
    if settings.Some? then settings.value else map[]
  }

  /** `getOrCreateResourceGroup`: a failed lookup creates the group in the
      configured region; a found group is returned as it is. */
  function EnsureResourceGroup(c: Cloud, config: WebAppConfig): (r: Cloud)
    ensures config.resourceGroup in r.resourceGroups
    ensures forall g :: g in c.resourceGroups ==> g in r.resourceGroups && r.resourceGroups[g] == c.resourceGroups[g]
    ensures r.resourceGroups.Keys == c.resourceGroups.Keys + {config.resourceGroup}
    ensures r.plans == c.plans && r.webApps == c.webApps && r.slots == c.slots
    ensures Extends(c, r)
  {
    if config.resourceGroup in c.resourceGroups then c
    else c.(resourceGroups := c.resourceGroups[config.resourceGroup := config.region],
            trace := c.trace + [CreateResourceGroup(config.resourceGroup, config.region)])
  }

  /** The plan `getOrCreateAppServicePlan` creates. */
  function NewPlan(config: WebAppConfig): AppServicePlan
    requires config.runtime.Some?
  {
    var key := ServicePlanKey(config);
    AppServicePlan(key, key.name, config.region, key.resourceGroup, config.pricingTier, config.runtime.value.operatingSystem)
  }

  /** `getOrCreateAppServicePlan`. Creating a plan reads the operating system
      of the configured runtime, which fails when that runtime is null. */
  function EnsureAppServicePlan(c: Cloud, config: WebAppConfig): (r: Transition<PlanKey>)
    ensures r.result.Success? ==> r.result.value == ServicePlanKey(config) && ServicePlanKey(config) in r.cloud.plans
    ensures r.result.Failure? ==> r.result.error == NullRuntime && r.cloud == c
    // every existing plan is kept as it was; at most the looked-up one is added
    ensures forall p :: p in c.plans ==> p in r.cloud.plans && r.cloud.plans[p] == c.plans[p]
    ensures r.result.Success? ==> r.cloud.plans.Keys == c.plans.Keys + {ServicePlanKey(config)}
    ensures r.cloud.resourceGroups == c.resourceGroups && r.cloud.webApps == c.webApps && r.cloud.slots == c.slots
    ensures Extends(c, r.cloud)
  {
    var key := ServicePlanKey(config);
    if key in c.plans then Transition(c, Success(key))
    else if config.runtime.None? then Transition(c, Failure(NullRuntime))
    else Transition(c.(plans := c.plans[key := NewPlan(config)], trace := c.trace + [CreateAppServicePlan(key)]), Success(key))
  }

  /** `createWebApp`. */
  function CreateApp(c: Cloud, config: WebAppConfig): (r: Transition<Target>)
    ensures r.result.Failure? <==> config.runtime.None?
    ensures r.result.Failure? ==> r.result.error == NoRuntimeConfig && r.cloud == c
    ensures r.result.Success? ==>
      && r.result.value == AppTarget(AppKeyOf(config))
      && config.resourceGroup in r.cloud.resourceGroups
      && AppKeyOf(config) in r.cloud.webApps
      && r.cloud.webApps[AppKeyOf(config)].plan in r.cloud.plans
      && r.cloud.webApps[AppKeyOf(config)].plan == ServicePlanKey(config)
      && r.cloud.webApps[AppKeyOf(config)].runtime == config.runtime.value
      && r.cloud.webApps[AppKeyOf(config)].dockerConfiguration == config.dockerConfiguration
      && r.cloud.webApps[AppKeyOf(config)].appSettings == SettingsOrEmpty(config.appSettings)
    // what existed is kept; only the group, the plan and the app are added
    ensures r.result.Success? ==>
      && r.cloud.resourceGroups.Keys == c.resourceGroups.Keys + {config.resourceGroup}
      && r.cloud.plans.Keys == c.plans.Keys + {ServicePlanKey(config)}
      && r.cloud.webApps.Keys == c.webApps.Keys + {AppKeyOf(config)}
    ensures forall g :: g in c.resourceGroups ==> r.cloud.resourceGroups[g] == c.resourceGroups[g]
    ensures forall p :: p in c.plans ==> r.cloud.plans[p] == c.plans[p]
    ensures forall k :: k in c.webApps && k != AppKeyOf(config) ==> r.cloud.webApps[k] == c.webApps[k]
    ensures r.cloud.slots == c.slots
    ensures Extends(c, r.cloud)
  {
    if config.runtime.None? then Transition(c, Failure(NoRuntimeConfig))
    else
      var c1 := EnsureResourceGroup(c, config);
      var planned := EnsureAppServicePlan(c1, config);
      var c2 := planned.cloud;
      var key := AppKeyOf(config);
      var app := WebApp(config.appName, config.resourceGroup, ServicePlanKey(config), config.runtime.value,
                        config.dockerConfiguration, SettingsOrEmpty(config.appSettings));
      Transition(c2.(webApps := c2.webApps[key := app], trace := c2.trace + [CreateWebApp(key)]), Success(AppTarget(key)))
  }

  /** The plan the update path binds the app to, before get-or-create. */
  function UpdateTargetPlan(app: WebApp, config: WebAppConfig): PlanKey
  {
    if config.servicePlanName == "" then app.plan else PlanKey(ServicePlanResourceGroup(config), config.servicePlanName)
  }

  /** The plan step of `updateWebApp`: a missing target plan goes through
      get-or-create; an existing one has its tier set when a tier is configured. */
  function UpdatePlan(c: Cloud, app: WebApp, config: WebAppConfig): (r: Transition<PlanKey>)
    ensures r.result.Success? ==> r.result.value in r.cloud.plans
    // an existing target plan changes at most in its tier; every other plan is kept
    ensures UpdateTargetPlan(app, config) in c.plans ==>
      var target := UpdateTargetPlan(app, config);
      r.cloud.plans == c.plans[target := c.plans[target].(pricingTier := if config.pricingTier.Some? then config.pricingTier else c.plans[target].pricingTier)]
    ensures forall p :: p in c.plans ==> p in r.cloud.plans && (p != UpdateTargetPlan(app, config) ==> r.cloud.plans[p] == c.plans[p])
    ensures r.result.Success? ==> r.cloud.plans.Keys == c.plans.Keys + {r.result.value}
    ensures r.cloud.resourceGroups == c.resourceGroups && r.cloud.webApps == c.webApps && r.cloud.slots == c.slots
    ensures Extends(c, r.cloud)
  {
    var target := UpdateTargetPlan(app, config);
    if target !in c.plans then EnsureAppServicePlan(c, config)
    else if config.pricingTier.Some? then
      Transition(c.(plans := c.plans[target := c.plans[target].(pricingTier := config.pricingTier)],
                    trace := c.trace + [UpdatePricingTier(target, config.pricingTier.value)]),
                 Success(target))
    else Transition(c, Success(target))
  }

  /** The app after its update: rebound to the plan, and each configured
      runtime, docker configuration and app settings applied (a null one
      leaves the app's current value). */
  function UpdatedApp(app: WebApp, plan: PlanKey, config: WebAppConfig): WebApp
  {
    app.(plan := plan,
         runtime := if config.runtime.Some? then config.runtime.value else app.runtime,
         dockerConfiguration := if config.dockerConfiguration.Some? then config.dockerConfiguration else app.dockerConfiguration,
         appSettings := if config.appSettings.Some? then config.appSettings.value else app.appSettings)
  }

  /** `updateWebApp`. */
  function UpdateApp(c: Cloud, config: WebAppConfig): (r: Transition<Target>)
    requires AppKeyOf(config) in c.webApps
    ensures r.result.Failure? ==> r.cloud == c
    ensures r.result.Success? ==>
      && r.result.value == AppTarget(AppKeyOf(config))
      && AppKeyOf(config) in r.cloud.webApps
      && r.cloud.webApps[AppKeyOf(config)].plan in r.cloud.plans
    // each configured value is applied; a null one leaves the app's own
    ensures r.result.Success? ==>
      var before, after := c.webApps[AppKeyOf(config)], r.cloud.webApps[AppKeyOf(config)];
      && after.runtime == (if config.runtime.Some? then config.runtime.value else before.runtime)
      && after.dockerConfiguration == (if config.dockerConfiguration.Some? then config.dockerConfiguration else before.dockerConfiguration)
      && after.appSettings == (if config.appSettings.Some? then config.appSettings.value else before.appSettings)
    // no other app and no slot is touched
    ensures r.cloud.webApps.Keys == c.webApps.Keys && r.cloud.slots == c.slots
    ensures forall k :: k in c.webApps && k != AppKeyOf(config) ==> r.cloud.webApps[k] == c.webApps[k]
    // no group is touched; only the plan the app is bound to may change
    ensures r.cloud.resourceGroups == c.resourceGroups
    ensures forall p :: p in c.plans ==>
      p in r.cloud.plans && (p != UpdateTargetPlan(c.webApps[AppKeyOf(config)], config) ==> r.cloud.plans[p] == c.plans[p])
    ensures Extends(c, r.cloud)
  {
    var key := AppKeyOf(config);
    var app := c.webApps[key];
    var planned := UpdatePlan(c, app, config);
    if planned.result.Failure? then Transition(planned.cloud, Failure(planned.result.error))
    else
      var c1 := planned.cloud;
      Transition(c1.(webApps := c1.webApps[key := UpdatedApp(app, planned.result.value, config)],
                     trace := c1.trace + [UpdateWebApp(key)]),
                 Success(AppTarget(key)))
  }

  function SlotKeyOf(config: WebAppConfig): SlotKey
  {
    SlotKey(AppKeyOf(config), config.deploymentSlotName)
  }

  /** `createDeploymentSlot`: the new slot is cloned from its configuration
      source and starts out with its parent's runtime. */
  function CreateSlot(c: Cloud, config: WebAppConfig): (r: Transition<Target>)
    requires AppKeyOf(config) in c.webApps
    ensures r.result == Success(SlotTarget(SlotKeyOf(config))) && SlotKeyOf(config) in r.cloud.slots
    ensures r.cloud.slots[SlotKeyOf(config)].runtime == c.webApps[AppKeyOf(config)].runtime
    ensures r.cloud.slots[SlotKeyOf(config)].configurationSource == config.deploymentSlotConfigurationSource
    ensures r.cloud.slots[SlotKeyOf(config)].appSettings == SettingsOrEmpty(config.appSettings)
    // every other slot is kept as it was
    ensures r.cloud.slots.Keys == c.slots.Keys + {SlotKeyOf(config)}
    ensures forall k :: k in c.slots && k != SlotKeyOf(config) ==> r.cloud.slots[k] == c.slots[k]
    ensures r.cloud.webApps == c.webApps && r.cloud.plans == c.plans && r.cloud.resourceGroups == c.resourceGroups
    ensures Extends(c, r.cloud)
  {
    var key := SlotKeyOf(config);
    var slot := DeploymentSlot(config.deploymentSlotName, config.deploymentSlotConfigurationSource,
                               SettingsOrEmpty(config.appSettings), c.webApps[AppKeyOf(config)].runtime);
    Transition(c.(slots := c.slots[key := slot], trace := c.trace + [CreateDeploymentSlot(key)]), Success(SlotTarget(key)))
  }

  /** `createOrUpdateResource`. An existing slot is returned unchanged
      (`updateDeploymentSlot` does nothing). */
  function Reconciled(c: Cloud, config: WebAppConfig): (r: Transition<Target>)
    ensures r.result.Failure? ==> r.cloud == c
    ensures r.result.Success? ==> TargetExists(r.cloud, r.result.value) && AppKeyOf(config) in r.cloud.webApps
  {
    var key := AppKeyOf(config);
    if config.deploymentSlotName == "" then
      if key in c.webApps then UpdateApp(c, config) else CreateApp(c, config)
    else if key !in c.webApps then Transition(c, Failure(WebAppNotExistForSlot))
    else if SlotKeyOf(config) in c.slots then Transition(c, Success(SlotTarget(SlotKeyOf(config))))
    else CreateSlot(c, config)
  }

  //------------------------------------------------------------------------
  // Properties
  //------------------------------------------------------------------------

  /** The calls a transition added to the trace. */
  function NewCalls(before: Cloud, after: Cloud): seq<Call>
    requires |before.trace| <= |after.trace|
  {
    after.trace[|before.trace|..]
  }

  /** The trace only grows. */
  ghost predicate Extends(before: Cloud, after: Cloud)
  {
    |before.trace| <= |after.trace| && after.trace[..|before.trace|] == before.trace
  }

  /** The same resources exist before and after. */
  ghost predicate SameResources(before: Cloud, after: Cloud)
  {
    && before.resourceGroups.Keys == after.resourceGroups.Keys
    && before.plans.Keys == after.plans.Keys
    && before.webApps.Keys == after.webApps.Keys
    && before.slots.Keys == after.slots.Keys
  }

  ghost predicate NoCreation(calls: seq<Call>)
  {
    forall i :: 0 <= i < |calls| ==> !IsCreation(calls[i])
  }

  /** A found resource group is left alone; a missing one is created once,
      in the configured region; a second call creates nothing. */
  lemma ResourceGroupGetOrCreate(c: Cloud, config: WebAppConfig)
    ensures var c' := EnsureResourceGroup(c, config);
      && config.resourceGroup in c'.resourceGroups
      && (config.resourceGroup in c.resourceGroups ==> c' == c)
      && (config.resourceGroup !in c.resourceGroups ==>
            c'.resourceGroups[config.resourceGroup] == config.region &&
            c'.trace == c.trace + [CreateResourceGroup(config.resourceGroup, config.region)])
      && (forall g :: g in c.resourceGroups ==> g in c'.resourceGroups && c'.resourceGroups[g] == c.resourceGroups[g])
      && EnsureResourceGroup(c', config) == c'
  {
  }

  /** A found plan is left alone; a missing one is created with the
      configured region, tier and the runtime's operating system; a second
      call creates nothing. Only a missing plan with a null runtime fails,
      and then nothing changes. */
  lemma PlanGetOrCreate(c: Cloud, config: WebAppConfig)
    ensures var t := EnsureAppServicePlan(c, config);
      && (t.result.Failure? <==> ServicePlanKey(config) !in c.plans && config.runtime.None?)
      && (t.result.Failure? ==> t.cloud == c)
      && (t.result.Success? ==> t.result.value == ServicePlanKey(config) && ServicePlanKey(config) in t.cloud.plans)
      && (ServicePlanKey(config) in c.plans ==> t.cloud == c)
      && (ServicePlanKey(config) !in c.plans && config.runtime.Some? ==>
            var plan := t.cloud.plans[ServicePlanKey(config)];
            plan.region == config.region && plan.pricingTier == config.pricingTier &&
            plan.operatingSystem == config.runtime.value.operatingSystem &&
            t.cloud.plans == c.plans[ServicePlanKey(config) := NewPlan(config)] &&
            t.cloud.trace == c.trace + [CreateAppServicePlan(ServicePlanKey(config))])
      && (t.result.Success? ==> EnsureAppServicePlan(t.cloud, config) == Transition(t.cloud, t.result))
  {
  }

  /** The plan rule of the update path. */
  lemma UpdatePlanRule(c: Cloud, app: WebApp, config: WebAppConfig)
    ensures var t := UpdatePlan(c, app, config);
      // no plan name and an existing current plan: the current plan is kept
      && (config.servicePlanName == "" && app.plan in c.plans && config.pricingTier.None? ==>
            t == Transition(c, Success(app.plan)))
      // an existing target plan with a configured tier: its tier is updated and no plan is created
      && (UpdateTargetPlan(app, config) in c.plans && config.pricingTier.Some? ==>
            && t.result == Success(UpdateTargetPlan(app, config))
            && t.cloud.plans.Keys == c.plans.Keys
            && t.cloud.plans[UpdateTargetPlan(app, config)].pricingTier == config.pricingTier
            && t.cloud.plans == c.plans[UpdateTargetPlan(app, config) := c.plans[UpdateTargetPlan(app, config)].(pricingTier := config.pricingTier)]
            && t.cloud.trace == c.trace + [UpdatePricingTier(UpdateTargetPlan(app, config), config.pricingTier.value)])
      // a missing target plan goes through get-or-create
      && (UpdateTargetPlan(app, config) !in c.plans ==> t == EnsureAppServicePlan(c, config))
      // the resource groups, apps and slots are not touched
      && t.cloud.resourceGroups == c.resourceGroups && t.cloud.webApps == c.webApps && t.cloud.slots == c.slots
  {
  }

  /** Creating an app issues, in order, the group create (when the group is
      missing), the plan create (when the plan is missing) and the app
      create; the app is bound to the looked-up plan with the configured
      runtime, docker configuration and settings. */
  lemma AppAfterCreate(c: Cloud, config: WebAppConfig)
    requires AppKeyOf(config) !in c.webApps && config.runtime.Some?
    ensures var t := CreateApp(c, config);
      && t.result == Success(AppTarget(AppKeyOf(config)))
      && t.cloud.trace == c.trace
           + (if config.resourceGroup in c.resourceGroups then [] else [CreateResourceGroup(config.resourceGroup, config.region)])
           + (if ServicePlanKey(config) in c.plans then [] else [CreateAppServicePlan(ServicePlanKey(config))])
           + [CreateWebApp(AppKeyOf(config))]
      && t.cloud.webApps == c.webApps[AppKeyOf(config) := WebApp(config.appName, config.resourceGroup, ServicePlanKey(config),
                                        config.runtime.value, config.dockerConfiguration, SettingsOrEmpty(config.appSettings))]
      && t.cloud.slots == c.slots
      && t.cloud.resourceGroups == (if config.resourceGroup in c.resourceGroups then c.resourceGroups
                                    else c.resourceGroups[config.resourceGroup := config.region])
      && t.cloud.plans == (if ServicePlanKey(config) in c.plans then c.plans
                           else c.plans[ServicePlanKey(config) := NewPlan(config)])
  {
  }

  /** Updating an app rebinds it: without a plan name it keeps an existing
      current plan; with a plan name, or when the plan it would keep is
      gone, it moves to the looked-up plan. The app update is the last call. */
  lemma AppAfterUpdate(c: Cloud, config: WebAppConfig)
    requires AppKeyOf(config) in c.webApps && UpdateApp(c, config).result.Success?
    ensures var t := UpdateApp(c, config);
            var before, after := c.webApps[AppKeyOf(config)], t.cloud.webApps[AppKeyOf(config)];
      && (config.servicePlanName == "" && before.plan in c.plans ==> after.plan == before.plan)
      && (config.servicePlanName != "" || UpdateTargetPlan(before, config) !in c.plans ==> after.plan == ServicePlanKey(config))
      && Extends(c, t.cloud)
      && t.cloud.trace[|t.cloud.trace| - 1] == UpdateWebApp(AppKeyOf(config))
      // no group changes; the plans are kept, with at most the bound plan added
      && t.cloud.resourceGroups == c.resourceGroups
      && t.cloud.plans.Keys == c.plans.Keys + {after.plan}
      && (forall p :: p in c.plans && p != UpdateTargetPlan(before, config) ==> t.cloud.plans[p] == c.plans[p])
  {
  }

  /** Without a slot name an existing app is updated and a missing one is
      created, never both; with a slot name, an existing slot comes back
      unchanged with no call. */
  lemma ReconcileDispatch(c: Cloud, config: WebAppConfig)
    ensures var t := Reconciled(c, config);
      && (config.deploymentSlotName == "" && AppKeyOf(config) in c.webApps ==>
            t == UpdateApp(c, config) && forall i :: |c.trace| <= i < |t.cloud.trace| ==> !t.cloud.trace[i].CreateWebApp?)
      && (config.deploymentSlotName == "" && AppKeyOf(config) !in c.webApps ==>
            t == CreateApp(c, config) && forall i :: |c.trace| <= i < |t.cloud.trace| ==> !t.cloud.trace[i].UpdateWebApp?)
      && (config.deploymentSlotName != "" && AppKeyOf(config) in c.webApps && SlotKeyOf(config) in c.slots ==>
            t == Transition(c, Success(SlotTarget(SlotKeyOf(config)))))
      && (config.deploymentSlotName != "" && AppKeyOf(config) in c.webApps && SlotKeyOf(config) !in c.slots ==>
            && t == CreateSlot(c, config)
            && t.result == Success(SlotTarget(SlotKeyOf(config)))
            && SlotKeyOf(config) in t.cloud.slots
            && t.cloud.trace == c.trace + [CreateDeploymentSlot(SlotKeyOf(config))])
  {
    if config.deploymentSlotName == "" && AppKeyOf(config) in c.webApps {
      UpdateCreatesNoApp(c, config);
    } else if config.deploymentSlotName == "" {
      CreateUpdatesNoApp(c, config);
    }
  }

  /** The update path issues no app create. */
  lemma UpdateCreatesNoApp(c: Cloud, config: WebAppConfig)
    requires AppKeyOf(config) in c.webApps
    ensures var t := UpdateApp(c, config);
      forall i :: |c.trace| <= i < |t.cloud.trace| ==> !t.cloud.trace[i].CreateWebApp?
  {
    var planned := UpdatePlan(c, c.webApps[AppKeyOf(config)], config);
    assert forall i :: |c.trace| <= i < |planned.cloud.trace| ==>
      planned.cloud.trace[i].CreateAppServicePlan? || planned.cloud.trace[i].UpdatePricingTier?;
  }

  /** The create path issues no app update. */
  lemma CreateUpdatesNoApp(c: Cloud, config: WebAppConfig)
    requires AppKeyOf(config) !in c.webApps
    ensures var t := CreateApp(c, config);
      forall i :: |c.trace| <= i < |t.cloud.trace| ==> !t.cloud.trace[i].UpdateWebApp?
  {
    if config.runtime.Some? {
      AppAfterCreate(c, config);
    }
  }

  /** The configuration errors (a slot under a missing app, an app to create
      without a runtime, a plan to create without a runtime) fire before any
      remote state changes or any call is issued. */
  lemma FailuresChangeNothing(c: Cloud, config: WebAppConfig)
    ensures Reconciled(c, config).result.Failure? ==> Reconciled(c, config).cloud == c
    ensures config.deploymentSlotName != "" && AppKeyOf(config) !in c.webApps ==>
      Reconciled(c, config) == Transition(c, Failure(WebAppNotExistForSlot))
    ensures config.deploymentSlotName == "" && AppKeyOf(config) !in c.webApps && config.runtime.None? ==>
      Reconciled(c, config) == Transition(c, Failure(NoRuntimeConfig))
  {
  }

  /** After a successful reconciliation the target exists, and an app's
      plan exists; with a plan name configured, that plan exists too. */
  lemma ReconciledTargetExists(c: Cloud, config: WebAppConfig)
    requires Reconciled(c, config).result.Success?
    ensures var t := Reconciled(c, config);
      && TargetExists(t.cloud, t.result.value)
      && AppKeyOf(config) in t.cloud.webApps
      && (config.deploymentSlotName == "" ==>
            t.result.value == AppTarget(AppKeyOf(config)) &&
            t.cloud.webApps[AppKeyOf(config)].plan in t.cloud.plans &&
            (config.servicePlanName != "" ==> t.cloud.webApps[AppKeyOf(config)].plan == ServicePlanKey(config)))
      && (config.deploymentSlotName != "" ==> t.result.value == SlotTarget(SlotKeyOf(config)))
  {
  }

  /** The trace of a reconciliation only grows. */
  lemma ReconcileExtendsTrace(c: Cloud, config: WebAppConfig)
    ensures Extends(c, Reconciled(c, config).cloud)
  {
  }

  /** Updating an app whose target plan exists creates nothing: it issues
      at most a tier update and the app update. */
  lemma UpdateCreatesNothing(c: Cloud, config: WebAppConfig)
    requires AppKeyOf(config) in c.webApps
    requires UpdateTargetPlan(c.webApps[AppKeyOf(config)], config) in c.plans
    ensures var t := UpdateApp(c, config);
      && t.result == Success(AppTarget(AppKeyOf(config)))
      && Extends(c, t.cloud)
      && NoCreation(NewCalls(c, t.cloud))
      && SameResources(c, t.cloud)
  {
    var app := c.webApps[AppKeyOf(config)];
    var planned := UpdatePlan(c, app, config);
    var t := UpdateApp(c, config);
    if config.pricingTier.Some? {
      assert NewCalls(c, t.cloud) == [UpdatePricingTier(UpdateTargetPlan(app, config), config.pricingTier.value), UpdateWebApp(AppKeyOf(config))];
    } else {
      assert NewCalls(c, t.cloud) == [UpdateWebApp(AppKeyOf(config))];
    }
  }

  /** A second reconciliation with the same configuration takes the update
      (or existing-slot) path: it creates nothing and leaves the same set of
      resources. */
  lemma ReconcileIdempotent(c: Cloud, config: WebAppConfig)
    requires Reconciled(c, config).result.Success?
    ensures var c1 := Reconciled(c, config).cloud;
            var t2 := Reconciled(c1, config);
      && t2.result == Reconciled(c, config).result
      && Extends(c1, t2.cloud)
      && NoCreation(NewCalls(c1, t2.cloud))
      && SameResources(c1, t2.cloud)
  {
    var c1 := Reconciled(c, config).cloud;
    ReconciledTargetExists(c, config);
    if config.deploymentSlotName == "" {
      UpdateCreatesNothing(c1, config);
    } else {
      assert NewCalls(c1, c1) == [];
    }
  }
}

=== FILE: strategy.dfy ===
/**
 * The deployment stage as a sequence of steps: the optional stop, the
 * artifact strategy chosen from the artifact list and the runtime's web
 * container, the FTP push of the external resources, and the start that
 * the `finally` block always issues. Any step may throw; `failAt` names
 * the step that does.
 */
module Strategy {
  import opened Wrappers
  import opened ManagementPlane

  /** A step of the deployment: a remote call, or packaging the staging
      directory (whose `IOException` is "Failed to package resources"). */
  datatype Step = Remote(call: Call) | Package

  datatype DeployError = PackagingFailed | RemoteCallFailed(call: Call)

  /** What running a list of steps issued, and how it ended. */
  datatype Execution = Execution(calls: seq<Call>, outcome: Outcome<DeployError>)

  function CallsOf(step: Step): seq<Call>
  {
    if step.Remote? then [step.call] else []
  }

  function ErrorOf(step: Step): DeployError
  {
    if step.Remote? then RemoteCallFailed(step.call) else PackagingFailed
  }

  /** Runs `steps`, numbered from `k`, until the step numbered `failAt`
      throws. A remote call that throws has been issued. */
  function Run(steps: seq<Step>, k: nat, failAt: Option<nat>): Execution
    decreases |steps|
  {
    if steps == [] then Execution([], Pass)
    else if failAt == Some(k) then Execution(CallsOf(steps[0]), Fail(ErrorOf(steps[0])))
    else
      var rest := Run(steps[1..], k + 1, failAt);
      Execution(CallsOf(steps[0]) + rest.calls, rest.outcome)
  }

  /** A list that fails stops the run of any extension of it. */
  lemma {:induction false} RunStopsAtFailure(a: seq<Step>, b: seq<Step>, k: nat, failAt: Option<nat>)
    requires Run(a, k, failAt).outcome.Fail?
    ensures Run(a + b, k, failAt) == Run(a, k, failAt)
    decreases |a|
  {
    var ab := a + b;
    assert ab[0] == a[0];
    if failAt != Some(k) {
      assert ab[1..] == a[1..] + b;
      RunStopsAtFailure(a[1..], b, k + 1, failAt);
    }
  }

  /** After a list that passes, the run goes on with the next one,
      numbered after it. */
  lemma {:induction false} RunGoesOnAfterPass(a: seq<Step>, b: seq<Step>, k: nat, failAt: Option<nat>)
    requires Run(a, k, failAt).outcome.Pass?
    ensures Run(a + b, k, failAt) ==
      Execution(Run(a, k, failAt).calls + Run(b, k + |a|, failAt).calls, Run(b, k + |a|, failAt).outcome)
    decreases |a|
  {
    if a == [] {
      assert a + b == b;
    } else {
      assert (a + b)[0] == a[0] && (a + b)[1..] == a[1..] + b;
      RunGoesOnAfterPass(a[1..], b, k + 1, failAt);
    }
  }

  /** Running two lists one after the other is running their concatenation. */
  lemma RunConcat(a: seq<Step>, b: seq<Step>, k: nat, failAt: Option<nat>)
    ensures Run(a, k, failAt).outcome.Fail? ==> Run(a + b, k, failAt) == Run(a, k, failAt)
    ensures Run(a, k, failAt).outcome.Pass? ==>
      Run(a + b, k, failAt) == Execution(Run(a, k, failAt).calls + Run(b, k + |a|, failAt).calls, Run(b, k + |a|, failAt).outcome)
  {
    if Run(a, k, failAt).outcome.Fail? {
      RunStopsAtFailure(a, b, k, failAt);
    } else {
      RunGoesOnAfterPass(a, b, k, failAt);
    }
  }

  /** Running `a` then `b` against the remote state: `b` runs only when `a`
      passed, numbered after `a`. */
  lemma RunThen(c: Cloud, a: seq<Step>, b: seq<Step>, k: nat, failAt: Option<nat>)
    ensures var ra := Run(a, k, failAt);
      && (ra.outcome.Fail? ==> Apply(c, Run(a + b, k, failAt)) == Apply(c, ra) && Run(a + b, k, failAt).outcome == ra.outcome)
      && (ra.outcome.Pass? ==>
            Apply(c, Run(a + b, k, failAt)) == Apply(Apply(c, ra), Run(b, k + |a|, failAt)) &&
            Run(a + b, k, failAt).outcome == Run(b, k + |a|, failAt).outcome)
  {
    RunConcat(a, b, k, failAt);
    var ra, rb := Run(a, k, failAt), Run(b, k + |a|, failAt);
    assert c.trace + (ra.calls + rb.calls) == c.trace + ra.calls + rb.calls;
  }

  /** Without a failing step, every remote call of the list is issued, in order. */
  lemma {:induction false} RunWithoutFault(steps: seq<Step>, k: nat, failAt: Option<nat>)
    requires failAt.None? || failAt.value < k || failAt.value >= k + |steps|
    ensures Run(steps, k, failAt).outcome == Pass
    ensures Run(steps, k, failAt).calls == AllCalls(steps)
    decreases |steps|
  {
    if steps != [] {
      RunWithoutFault(steps[1..], k + 1, failAt);
    }
  }

  /** Every remote call of the list, in order. */
  function AllCalls(steps: seq<Step>): seq<Call>
    decreases |steps|
  {
    if steps == [] then [] else CallsOf(steps[0]) + AllCalls(steps[1..])
  }

  /** Whatever step fails, the calls issued are among the calls of the list. */
  lemma {:induction false} RunIssuesListedCalls(steps: seq<Step>, k: nat, failAt: Option<nat>)
    ensures forall call :: call in Run(steps, k, failAt).calls ==> call in AllCalls(steps)
    decreases |steps|
  {
    if steps != [] {
      RunIssuesListedCalls(steps[1..], k + 1, failAt);
    }
  }

  //------------------------------------------------------------------------
  // The artifact strategies
  //------------------------------------------------------------------------

  /** `prepareStagingDirectory`'s mapping: an artifact with an empty path goes
      to the staging root, any other to `<root>/<path>`. */
  function StagingFolder(root: string, path: string): string
  {
    if path == "" then root else root + "/" + path
  }

  function StagingTree(root: string, artifacts: seq<Artifact>): (tree: seq<Staged>)
    ensures |tree| == |artifacts|
    ensures forall i :: 0 <= i < |tree| ==> tree[i] == Staged(StagingFolder(root, artifacts[i].path), artifacts[i].file)
    decreases |artifacts|
  {
    if artifacts == [] then []
    else [Staged(StagingFolder(root, artifacts[0].path), artifacts[0].file)] + StagingTree(root, artifacts[1..])
  }

  /** The deploy type of a lone artifact: EAR on JBoss EAP 7.2, whatever the
      artifact says otherwise. */
  function SingleDeployType(runtime: Runtime, artifact: Artifact): (d: DeployType)
    ensures runtime.webContainer == Some(JBoss72) ==> d == Ear
    ensures d != artifact.deployType ==> runtime.webContainer == Some(JBoss72)
  {
    if runtime.webContainer == Some(JBoss72) then Ear else artifact.deployType
  }

  /** One direct deploy per artifact, in list order. */
  function DirectDeploys(t: Target, artifacts: seq<Artifact>): (steps: seq<Step>)
    ensures |steps| == |artifacts|
    ensures Package !in steps
    decreases |artifacts|
  {
    if artifacts == [] then []
    else [Remote(DeployFile(t, artifacts[0].deployType, artifacts[0].file, artifacts[0].path))] + DirectDeploys(t, artifacts[1..])
  }

  /** Step `i` deploys artifact `i` with its own type and path. */
  lemma {:induction false} DirectDeploysAt(t: Target, artifacts: seq<Artifact>)
    ensures forall i :: 0 <= i < |artifacts| ==>
      DirectDeploys(t, artifacts)[i] == Remote(DeployFile(t, artifacts[i].deployType, artifacts[i].file, artifacts[i].path))
    decreases |artifacts|
  {
    if artifacts != [] {
      DirectDeploysAt(t, artifacts[1..]);
    }
  }

  /** The archive pushed by the zip strategy: the staging tree, after the
      JAVA_SE rename of the primary jar (`prepareJavaSERuntimeJarArtifact`,
      passed in). */
  function ZipArchive(runtime: Runtime, root: string, artifacts: seq<Artifact>, javaSeRename: seq<Staged> -> seq<Staged>): seq<Staged>
  {
    var tree := StagingTree(root, artifacts);
    if runtime.webContainer == Some(JavaSE) then javaSeRename(tree) else tree
  }

  /** `deployArtifacts`: nothing for no artifacts; one direct deploy for a
      single artifact; one direct deploy each when all are WARs
      (`isAllWarArtifacts`, passed in); otherwise package and one zip deploy. */
  function ArtifactSteps(t: Target, runtime: Runtime, artifacts: seq<Artifact>, isAllWarArtifacts: seq<Artifact> -> bool,
                         root: string, javaSeRename: seq<Staged> -> seq<Staged>): (steps: seq<Step>)
    ensures |steps| <= |artifacts|
    ensures Package in steps ==> |artifacts| >= 2 && !isAllWarArtifacts(artifacts)
  {
    if |artifacts| == 0 then []
    else if |artifacts| == 1 then
      [Remote(DeployFile(t, SingleDeployType(runtime, artifacts[0]), artifacts[0].file, artifacts[0].path))]
    else if isAllWarArtifacts(artifacts) then DirectDeploys(t, artifacts)
    else ZipSteps(t, runtime, root, artifacts, javaSeRename)
  }

  /** `deployArtifactsWithZipDeploy`: stage and package, then one zip deploy. */
  function ZipSteps(t: Target, runtime: Runtime, root: string, artifacts: seq<Artifact>, javaSeRename: seq<Staged> -> seq<Staged>): (steps: seq<Step>)
    ensures Package in steps
    ensures forall s :: s in steps && s.Remote? ==> s.call == ZipDeploy(t, ZipArchive(runtime, root, artifacts, javaSeRename))
  {
    [Package, Remote(ZipDeploy(t, ZipArchive(runtime, root, artifacts, javaSeRename)))]
  }

  /** The remote state after a run: its calls appended to the trace. */
  function Apply(c: Cloud, run: Execution): Cloud
  {
    c.(trace := c.trace + run.calls)
  }

  /** The direct deploys of one more artifact. */
  lemma DirectDeploysSnoc(t: Target, artifacts: seq<Artifact>, i: nat)
    requires i < |artifacts|
    ensures DirectDeploys(t, artifacts[..i + 1]) ==
      DirectDeploys(t, artifacts[..i]) + [Remote(DeployFile(t, artifacts[i].deployType, artifacts[i].file, artifacts[i].path))]
  {
    DirectDeploysSplit(t, artifacts[..i + 1], i);
    assert artifacts[..i + 1][..i] == artifacts[..i];
    assert artifacts[..i + 1][i..] == [artifacts[i]];
  }

  /** One more direct deploy, after a prefix that passed. */
  lemma DirectDeployStep(c: Cloud, t: Target, artifacts: seq<Artifact>, i: nat, k: nat, failAt: Option<nat>)
    requires i < |artifacts|
    requires Run(DirectDeploys(t, artifacts[..i]), k, failAt).outcome.Pass?
    ensures var step := Remote(DeployFile(t, artifacts[i].deployType, artifacts[i].file, artifacts[i].path));
      && Apply(Apply(c, Run(DirectDeploys(t, artifacts[..i]), k, failAt)), Run([step], k + i, failAt))
           == Apply(c, Run(DirectDeploys(t, artifacts[..i + 1]), k, failAt))
      && Run([step], k + i, failAt).outcome == Run(DirectDeploys(t, artifacts[..i + 1]), k, failAt).outcome
  {
    var step := Remote(DeployFile(t, artifacts[i].deployType, artifacts[i].file, artifacts[i].path));
    DirectDeploysSnoc(t, artifacts, i);
    RunThen(c, DirectDeploys(t, artifacts[..i]), [step], k, failAt);
  }

  /** A prefix of the direct deploys that failed, or covers every artifact,
      is the whole run. */
  lemma DirectDeploysDone(c: Cloud, t: Target, artifacts: seq<Artifact>, i: nat, k: nat, failAt: Option<nat>)
    requires i <= |artifacts|
    requires i == |artifacts| || Run(DirectDeploys(t, artifacts[..i]), k, failAt).outcome.Fail?
    ensures Apply(c, Run(DirectDeploys(t, artifacts[..i]), k, failAt)) == Apply(c, Run(DirectDeploys(t, artifacts), k, failAt))
    ensures Run(DirectDeploys(t, artifacts[..i]), k, failAt).outcome == Run(DirectDeploys(t, artifacts), k, failAt).outcome
  {
    DirectDeploysSplit(t, artifacts, i);
    assert artifacts[..|artifacts|] == artifacts;
    RunThen(c, DirectDeploys(t, artifacts[..i]), DirectDeploys(t, artifacts[i..]), k, failAt);
  }

  /** Splitting the artifact list splits its direct deploys. */
  lemma {:induction false} DirectDeploysSplit(t: Target, artifacts: seq<Artifact>, i: nat)
    requires i <= |artifacts|
    ensures DirectDeploys(t, artifacts) == DirectDeploys(t, artifacts[..i]) + DirectDeploys(t, artifacts[i..])
    decreases i
  {
    if i == 0 {
      assert artifacts[..0] == [] && artifacts[0..] == artifacts;
    } else {
      DirectDeploysSplit(t, artifacts[1..], i - 1);
      assert artifacts[1..][..i - 1] == artifacts[..i][1..];
      assert artifacts[1..][i - 1..] == artifacts[i..];
      assert artifacts[..i][0] == artifacts[0];
    }
  }

  /** The resources `isExternalResource` (passed in) keeps, in order. */
  function ExternalResources(resources: seq<Resource>, isExternalResource: Resource -> bool): (r: seq<Resource>)
    ensures forall x :: x in r <==> x in resources && isExternalResource(x)
    ensures |r| <= |resources|
    decreases |resources|
  {
    if resources == [] then []
    else (if isExternalResource(resources[0]) then [resources[0]] else []) + ExternalResources(resources[1..], isExternalResource)
  }

  /** Filtering keeps the list order: filtering a concatenation is
      concatenating the filtered parts. */
  lemma {:induction false} ExternalResourcesConcat(a: seq<Resource>, b: seq<Resource>, isExternalResource: Resource -> bool)
    ensures ExternalResources(a + b, isExternalResource) == ExternalResources(a, isExternalResource) + ExternalResources(b, isExternalResource)
    decreases |a|
  {
    if a == [] {
      assert a + b == b;
    } else {
      assert (a + b)[0] == a[0];
      assert (a + b)[1..] == a[1..] + b;
      ExternalResourcesConcat(a[1..], b, isExternalResource);
    }
  }

  function StopSteps(t: Target, stopAppDuringDeployment: bool): seq<Step>
  {
    if stopAppDuringDeployment then [Remote(StopApp(t))] else []
  }

  /** The body of the `try` in `deploy`. */
  function DeploySteps(t: Target, runtime: Runtime, stopAppDuringDeployment: bool, artifacts: seq<Artifact>,
                       isAllWarArtifacts: seq<Artifact> -> bool, root: string, javaSeRename: seq<Staged> -> seq<Staged>,
                       resources: seq<Resource>, isExternalResource: Resource -> bool): seq<Step>
  {
    StopSteps(t, stopAppDuringDeployment)
    + ArtifactSteps(t, runtime, artifacts, isAllWarArtifacts, root, javaSeRename)
    + [Remote(FtpUpload(t, ExternalResources(resources, isExternalResource)))]
  }

  /** `deploy`: nothing at all for a Docker runtime; otherwise the steps, then
      the start of the `finally` block, whatever happened. A start that
      throws (`startFails`) fails the deployment, and its exception replaces
      whatever the steps threw. Deployment changes no resource and only
      appends to the trace. */
  function Deployed(c: Cloud, t: Target, stopAppDuringDeployment: bool, artifacts: seq<Artifact>,
                    isAllWarArtifacts: seq<Artifact> -> bool, root: string, javaSeRename: seq<Staged> -> seq<Staged>,
                    resources: seq<Resource>, isExternalResource: Resource -> bool, failAt: Option<nat>, startFails: bool)
    : (r: (Cloud, Outcome<DeployError>))
    requires TargetExists(c, t)
    ensures r.0.resourceGroups == c.resourceGroups && r.0.plans == c.plans && r.0.webApps == c.webApps && r.0.slots == c.slots
    ensures |c.trace| <= |r.0.trace| && r.0.trace[..|c.trace|] == c.trace
  {
    var runtime := TargetRuntime(c, t);
    if runtime.operatingSystem == Docker then (c, Pass)
    else
      var run := Run(DeploySteps(t, runtime, stopAppDuringDeployment, artifacts, isAllWarArtifacts, root, javaSeRename,
                                 resources, isExternalResource), 0, failAt);
      (c.(trace := c.trace + run.calls + [StartApp(t)]),
       if startFails then Fail(RemoteCallFailed(StartApp(t))) else run.outcome)
  }

  //------------------------------------------------------------------------
  // Properties
  //------------------------------------------------------------------------

  function Count(calls: seq<Call>, p: Call -> bool): nat
    decreases |calls|
  {
    if calls == [] then 0 else (if p(calls[0]) then 1 else 0) + Count(calls[1..], p)
  }

  lemma {:induction false} CountConcat(a: seq<Call>, b: seq<Call>, p: Call -> bool)
    ensures Count(a + b, p) == Count(a, p) + Count(b, p)
    decreases |a|
  {
    if a != [] {
      assert (a + b)[0] == a[0] && (a + b)[1..] == a[1..] + b;
      CountConcat(a[1..], b, p);
    } else {
      assert a + b == b;
    }
  }

  /** A Docker runtime issues no stop, deploy or start call, and changes nothing. */
  lemma DockerIssuesNothing(c: Cloud, t: Target, stop: bool, artifacts: seq<Artifact>, isAllWar: seq<Artifact> -> bool,
                            root: string, rename: seq<Staged> -> seq<Staged>, resources: seq<Resource>,
                            isExternal: Resource -> bool, failAt: Option<nat>, startFails: bool)
    requires TargetExists(c, t) && TargetRuntime(c, t).operatingSystem == Docker
    ensures Deployed(c, t, stop, artifacts, isAllWar, root, rename, resources, isExternal, failAt, startFails) == (c, Pass)
  {
  }

  /** Otherwise, on every exit path, start is issued last and only there;
      the error of a failed step propagates unless the start throws too,
      whose error then wins. */
  lemma StartIsLastCall(c: Cloud, t: Target, stop: bool, artifacts: seq<Artifact>, isAllWar: seq<Artifact> -> bool,
                        root: string, rename: seq<Staged> -> seq<Staged>, resources: seq<Resource>,
                        isExternal: Resource -> bool, failAt: Option<nat>, startFails: bool)
    requires TargetExists(c, t) && TargetRuntime(c, t).operatingSystem != Docker
    ensures var c' := Deployed(c, t, stop, artifacts, isAllWar, root, rename, resources, isExternal, failAt, startFails).0;
      && |c'.trace| > |c.trace|
      && c'.trace[..|c.trace|] == c.trace
      && c'.trace[|c'.trace| - 1] == StartApp(t)
      && (forall i :: |c.trace| <= i < |c'.trace| - 1 ==> !c'.trace[i].StartApp?)
      && c'.resourceGroups == c.resourceGroups && c'.plans == c.plans && c'.webApps == c.webApps && c'.slots == c.slots
    ensures var steps := DeploySteps(t, TargetRuntime(c, t), stop, artifacts, isAllWar, root, rename, resources, isExternal);
      !startFails && failAt.Some? && failAt.value < |steps| ==>
        Deployed(c, t, stop, artifacts, isAllWar, root, rename, resources, isExternal, failAt, startFails).1 == Fail(ErrorOf(steps[failAt.value]))
    ensures startFails ==>
      Deployed(c, t, stop, artifacts, isAllWar, root, rename, resources, isExternal, failAt, startFails).1 == Fail(RemoteCallFailed(StartApp(t)))
  {
    var runtime := TargetRuntime(c, t);
    var steps := DeploySteps(t, runtime, stop, artifacts, isAllWar, root, rename, resources, isExternal);
    var run := Run(steps, 0, failAt);
    var r := Deployed(c, t, stop, artifacts, isAllWar, root, rename, resources, isExternal, failAt, startFails);
    assert r.0 == c.(trace := c.trace + run.calls + [StartApp(t)]);
    assert r.1 == if startFails then Fail(RemoteCallFailed(StartApp(t))) else run.outcome;
    RunIssuesListedCalls(steps, 0, failAt);
    NoStartListed(t, runtime, stop, artifacts, isAllWar, root, rename, resources, isExternal);
    StartAppended(c.trace, run.calls, t);
    if failAt.Some? && failAt.value < |steps| {
      RunFailsAt(steps, 0, failAt.value);
    }
  }

  /** Appending calls without a start, then a start, to a trace: the start
      is the only new one and the last call. */
  lemma StartAppended(trace: seq<Call>, calls: seq<Call>, t: Target)
    requires forall call :: call in calls ==> !call.StartApp?
    ensures var after := trace + calls + [StartApp(t)];
      && |after| > |trace| && after[..|trace|] == trace && after[|after| - 1] == StartApp(t)
      && forall i :: |trace| <= i < |after| - 1 ==> !after[i].StartApp?
  {
    var after := trace + calls + [StartApp(t)];
    forall i | |trace| <= i < |after| - 1 ensures !after[i].StartApp? {
      assert after[i] == calls[i - |trace|];
    }
  }

  /** A list whose fault lies inside it fails with that step's error. */
  lemma {:induction false} RunFailsAt(steps: seq<Step>, k: nat, f: nat)
    requires k <= f < k + |steps|
    ensures Run(steps, k, Some(f)).outcome == Fail(ErrorOf(steps[f - k]))
    decreases |steps|
  {
    if f != k {
      RunFailsAt(steps[1..], k + 1, f);
    }
  }

  lemma NoStartListed(t: Target, runtime: Runtime, stop: bool, artifacts: seq<Artifact>, isAllWar: seq<Artifact> -> bool,
                      root: string, rename: seq<Staged> -> seq<Staged>, resources: seq<Resource>, isExternal: Resource -> bool)
    ensures forall call :: call in AllCalls(DeploySteps(t, runtime, stop, artifacts, isAllWar, root, rename, resources, isExternal)) ==> !call.StartApp?
  {
    var stopSteps := StopSteps(t, stop);
    var artifactSteps := ArtifactSteps(t, runtime, artifacts, isAllWar, root, rename);
    var ftp := [Remote(FtpUpload(t, ExternalResources(resources, isExternal)))];
    AllCallsConcat(stopSteps, artifactSteps);
    AllCallsConcat(stopSteps + artifactSteps, ftp);
    if |artifacts| >= 2 && isAllWar(artifacts) {
      DirectDeploysAt(t, artifacts);
    }
    AllCallsNoStart(artifactSteps);
  }

  lemma {:induction false} AllCallsConcat(a: seq<Step>, b: seq<Step>)
    ensures AllCalls(a + b) == AllCalls(a) + AllCalls(b)
    decreases |a|
  {
    if a != [] {
      assert (a + b)[0] == a[0] && (a + b)[1..] == a[1..] + b;
      AllCallsConcat(a[1..], b);
    } else {
      assert a + b == b;
    }
  }

  lemma {:induction false} AllCallsNoStart(steps: seq<Step>)
    requires forall i :: 0 <= i < |steps| ==> steps[i].Package? || !steps[i].call.StartApp?
    ensures forall call :: call in AllCalls(steps) ==> !call.StartApp?
    decreases |steps|
  {
    if steps != [] {
      AllCallsNoStart(steps[1..]);
    }
  }

  /** The calls of a run without a failing step. */
  function DeployCalls(t: Target, runtime: Runtime, stop: bool, artifacts: seq<Artifact>, isAllWar: seq<Artifact> -> bool,
                       root: string, rename: seq<Staged> -> seq<Staged>, resources: seq<Resource>, isExternal: Resource -> bool): seq<Call>
  {
    (if stop then [StopApp(t)] else [])
    + AllCalls(ArtifactSteps(t, runtime, artifacts, isAllWar, root, rename))
    + [FtpUpload(t, ExternalResources(resources, isExternal)), StartApp(t)]
  }

  /** Without a fault, a non-Docker deployment issues the stop only when
      configured, the artifact calls, the FTP push, and the start. */
  lemma {:induction false} DeployWithoutFault(c: Cloud, t: Target, stop: bool, artifacts: seq<Artifact>, isAllWar: seq<Artifact> -> bool,
                                               root: string, rename: seq<Staged> -> seq<Staged>, resources: seq<Resource>,
                                               isExternal: Resource -> bool)
    requires TargetExists(c, t) && TargetRuntime(c, t).operatingSystem != Docker
    ensures Deployed(c, t, stop, artifacts, isAllWar, root, rename, resources, isExternal, None, false) ==
      (c.(trace := c.trace + DeployCalls(t, TargetRuntime(c, t), stop, artifacts, isAllWar, root, rename, resources, isExternal)), Pass)
  {
    var runtime := TargetRuntime(c, t);
    var steps := DeploySteps(t, runtime, stop, artifacts, isAllWar, root, rename, resources, isExternal);
    RunWithoutFault(steps, 0, None);
    DeployStepsCalls(t, runtime, stop, artifacts, isAllWar, root, rename, resources, isExternal);
    var calls := AllCalls(steps);
    assert c.trace + calls + [StartApp(t)] == c.trace + (calls + [StartApp(t)]);
  }

  /** The calls of the `try` block, in order: the stop when configured, the
      artifact calls and the FTP push. */
  lemma DeployStepsCalls(t: Target, runtime: Runtime, stop: bool, artifacts: seq<Artifact>, isAllWar: seq<Artifact> -> bool,
                         root: string, rename: seq<Staged> -> seq<Staged>, resources: seq<Resource>, isExternal: Resource -> bool)
    ensures AllCalls(DeploySteps(t, runtime, stop, artifacts, isAllWar, root, rename, resources, isExternal)) + [StartApp(t)]
      == DeployCalls(t, runtime, stop, artifacts, isAllWar, root, rename, resources, isExternal)
  {
    var stopSteps := StopSteps(t, stop);
    var artifactSteps := ArtifactSteps(t, runtime, artifacts, isAllWar, root, rename);
    var ftpCall := FtpUpload(t, ExternalResources(resources, isExternal));
    AllCallsConcat(stopSteps, artifactSteps);
    AllCallsConcat(stopSteps + artifactSteps, [Remote(ftpCall)]);
    if stop {
      assert AllCalls(stopSteps) == [StopApp(t)] && AllCalls([Remote(ftpCall)]) == [ftpCall];
    } else {
      assert AllCalls([Remote(ftpCall)]) == [ftpCall];
    }
  }

  /** Stop is issued exactly when `stopAppDuringDeployment` is set, and then first. */
  lemma StopOnlyWhenConfigured(t: Target, runtime: Runtime, stop: bool, artifacts: seq<Artifact>, isAllWar: seq<Artifact> -> bool,
                               root: string, rename: seq<Staged> -> seq<Staged>, resources: seq<Resource>, isExternal: Resource -> bool,
                               failAt: Option<nat>)
    ensures var calls := Run(DeploySteps(t, runtime, stop, artifacts, isAllWar, root, rename, resources, isExternal), 0, failAt).calls;
      && (stop ==> |calls| > 0 && calls[0] == StopApp(t))
      && (!stop ==> forall call :: call in calls ==> !call.StopApp?)
  {
    var steps := DeploySteps(t, runtime, stop, artifacts, isAllWar, root, rename, resources, isExternal);
    if stop {
      assert steps[0] == Remote(StopApp(t));
    } else {
      RunIssuesListedCalls(steps, 0, failAt);
      var artifactSteps := ArtifactSteps(t, runtime, artifacts, isAllWar, root, rename);
      var ftp := [Remote(FtpUpload(t, ExternalResources(resources, isExternal)))];
      assert steps == artifactSteps + ftp;
      AllCallsConcat(artifactSteps, ftp);
      assert forall call :: call in AllCalls(artifactSteps) ==> !call.StopApp? by {
        AllCallsOfArtifactSteps(t, runtime, artifacts, isAllWar, root, rename);
      }
    }
  }

  /** The artifact calls of each strategy. */
  lemma AllCallsOfArtifactSteps(t: Target, runtime: Runtime, artifacts: seq<Artifact>, isAllWar: seq<Artifact> -> bool,
                                root: string, rename: seq<Staged> -> seq<Staged>)
    ensures var calls := AllCalls(ArtifactSteps(t, runtime, artifacts, isAllWar, root, rename));
      && (|artifacts| == 0 ==> calls == [])
      && (|artifacts| == 1 ==>
            calls == [DeployFile(t, SingleDeployType(runtime, artifacts[0]), artifacts[0].file, artifacts[0].path)])
      && (|artifacts| >= 2 && isAllWar(artifacts) ==>
            |calls| == |artifacts| &&
            forall i :: 0 <= i < |artifacts| ==>
              calls[i] == DeployFile(t, artifacts[i].deployType, artifacts[i].file, artifacts[i].path))
      && (|artifacts| >= 2 && !isAllWar(artifacts) ==>
            calls == [ZipDeploy(t, ZipArchive(runtime, root, artifacts, rename))])
      && (forall call :: call in calls ==> call.DeployFile? || call.ZipDeploy?)
  {
    var steps := ArtifactSteps(t, runtime, artifacts, isAllWar, root, rename);
    if |artifacts| == 1 {
      assert steps[1..] == [];
    } else if |artifacts| >= 2 && isAllWar(artifacts) {
      DirectDeployCalls(t, artifacts);
    } else if |artifacts| >= 2 {
      var zip := Remote(ZipDeploy(t, ZipArchive(runtime, root, artifacts, rename)));
      assert steps[1..] == [zip] && steps[1..][1..] == [];
      assert AllCalls([zip]) == [zip.call] + AllCalls([]);
      assert AllCalls(steps) == [] + AllCalls([zip]);
    }
  }

  lemma {:induction false} DirectDeployCalls(t: Target, artifacts: seq<Artifact>)
    ensures var calls := AllCalls(DirectDeploys(t, artifacts));
      && |calls| == |artifacts|
      && forall i :: 0 <= i < |artifacts| ==> calls[i] == DeployFile(t, artifacts[i].deployType, artifacts[i].file, artifacts[i].path)
    decreases |artifacts|
  {
    if artifacts != [] {
      DirectDeployCalls(t, artifacts[1..]);
    }
  }

  /** On the fallback path, a fault-free run issues exactly one zip deploy,
      of a staging tree that (outside JAVA_SE) holds artifact `i` in
      `StagingFolder(root, path_i)`, and no direct deploy. */
  lemma ZipFallbackDeploysOnce(t: Target, runtime: Runtime, stop: bool, artifacts: seq<Artifact>, isAllWar: seq<Artifact> -> bool,
                               root: string, rename: seq<Staged> -> seq<Staged>, resources: seq<Resource>, isExternal: Resource -> bool)
    requires |artifacts| >= 2 && !isAllWar(artifacts)
    ensures var calls := DeployCalls(t, runtime, stop, artifacts, isAllWar, root, rename, resources, isExternal);
      && Count(calls, (call: Call) => call.ZipDeploy?) == 1
      && Count(calls, (call: Call) => call.DeployFile?) == 0
    ensures runtime.webContainer != Some(JavaSE) ==>
      var archive := ZipArchive(runtime, root, artifacts, rename);
      |archive| == |artifacts| &&
      forall i :: 0 <= i < |artifacts| ==> archive[i] == Staged(StagingFolder(root, artifacts[i].path), artifacts[i].file)
  {
    AllCallsOfArtifactSteps(t, runtime, artifacts, isAllWar, root, rename);
    var zip := (call: Call) => call.ZipDeploy?;
    var direct := (call: Call) => call.DeployFile?;
    var stopCalls := if stop then [StopApp(t)] else [];
    var middle := [ZipDeploy(t, ZipArchive(runtime, root, artifacts, rename))];
    var tail := [FtpUpload(t, ExternalResources(resources, isExternal)), StartApp(t)];
    CountConcat(stopCalls + middle, tail, zip);
    CountConcat(stopCalls, middle, zip);
    CountConcat(stopCalls + middle, tail, direct);
    CountConcat(stopCalls, middle, direct);
    assert Count(tail, zip) == 0 && Count(tail, direct) == 0 by {
      assert tail[1..][1..] == [];
    }
    assert Count(stopCalls, zip) == 0 && Count(stopCalls, direct) == 0;
  }
}

=== FILE: subscriptions.dfy ===
/**
 * Subscription resolution of the web-app Mojo: which subscription the
 * management client is scoped to, after login and before any remote call.
 */
module Subscriptions {
  import opened Wrappers
  import opened JavaStrings
  import opened Auth

  datatype Subscription = Subscription(subscriptionId: string, displayName: string)

  /** The failures of resolution; the Mojo rethrows each as an
      `AzureExecutionException` carrying the same message. */
  datatype SubscriptionError =
    | NoSubscriptions          // "Cannot find any subscriptions in current account."
    | NoneSelected             // "You must select a subscription."
    | SubscriptionNotFound(id: string)
    | LoginFailed(cause: LoginFailure)

  /** The interactive prompt, as an oracle: it is shown the numbered options
      and the default, and answers with one of the options or with nothing. */
  type Prompt = (seq<Subscription>, Subscription) -> Option<Subscription>

  ghost predicate AnswersFromOptions(prompt: Prompt)
  {
    forall options, default :: prompt(options, default).Some? ==> prompt(options, default).value in options
  }

  function SubscriptionIds(subscriptions: seq<Subscription>): (ids: seq<string>)
    ensures |ids| == |subscriptions|
    ensures forall i :: 0 <= i < |ids| ==> ids[i] == subscriptions[i].subscriptionId
  {
    if subscriptions == [] then [] else [subscriptions[0].subscriptionId] + SubscriptionIds(subscriptions[1..])
  }

  //------------------------------------------------------------------------
  // The order of the prompt's options. `SubscriptionOption2`'s comparison is
  // outside the model: it is given as a rank, and `.sorted()` is a stable
  // insertion sort by that rank.
  //------------------------------------------------------------------------

  ghost predicate SortedByRank(s: seq<Subscription>, rank: Subscription -> int)
  {
    forall i, j :: 0 <= i < j < |s| ==> rank(s[i]) <= rank(s[j])
  }

  function InsertByRank(x: Subscription, s: seq<Subscription>, rank: Subscription -> int): (r: seq<Subscription>)
    ensures multiset(r) == multiset(s) + multiset{x}
    ensures |r| == |s| + 1
  {
    if s == [] || rank(x) <= rank(s[0]) then [x] + s
    else
      assert s == [s[0]] + s[1..];
      [s[0]] + InsertByRank(x, s[1..], rank)
  }

  function SortByRank(s: seq<Subscription>, rank: Subscription -> int): (r: seq<Subscription>)
    ensures multiset(r) == multiset(s)
    ensures |r| == |s|
  {
    if s == [] then []
    else
      assert s == [s[0]] + s[1..];
      InsertByRank(s[0], SortByRank(s[1..], rank), rank)
  }

  /** Inserting adds `x` and nothing else. */
  lemma {:induction false} InsertAddsOnlyX(x: Subscription, s: seq<Subscription>, rank: Subscription -> int)
    ensures forall y :: y in InsertByRank(x, s, rank) ==> y == x || y in s
  {
    if s != [] && rank(x) > rank(s[0]) {
      InsertAddsOnlyX(x, s[1..], rank);
      assert s == [s[0]] + s[1..];
    }
  }

  lemma {:induction false} InsertKeepsSorted(x: Subscription, s: seq<Subscription>, rank: Subscription -> int)
    requires SortedByRank(s, rank)
    ensures SortedByRank(InsertByRank(x, s, rank), rank)
  {
    if s == [] || rank(x) <= rank(s[0]) {
    } else {
      var tail := InsertByRank(x, s[1..], rank);
      InsertKeepsSorted(x, s[1..], rank);
      InsertAddsOnlyX(x, s[1..], rank);
      forall k | 0 <= k < |tail| ensures rank(s[0]) <= rank(tail[k]) {
        assert tail[k] in tail;
        if tail[k] != x {
          var m :| 0 <= m < |s[1..]| && s[1..][m] == tail[k];
          assert s[m + 1] == tail[k];
        }
      }
    }
  }

  /** The options offered by the prompt: every subscription, ordered. */
  lemma {:induction false} SortByRankSorts(s: seq<Subscription>, rank: Subscription -> int)
    ensures SortedByRank(SortByRank(s, rank), rank)
  {
    if s != [] {
      SortByRankSorts(s[1..], rank);
      InsertKeepsSorted(s[0], SortByRank(s[1..], rank), rank);
    }
  }

  /** `selectSubscription`'s list of options, sorted. */
  function PromptOptions(subscriptions: seq<Subscription>, rank: Subscription -> int): (options: seq<Subscription>)
    ensures multiset(options) == multiset(subscriptions)
    ensures SortedByRank(options, rank)
  {
    SortByRankSorts(subscriptions, rank);
    SortByRank(subscriptions, rank)
  }

  /** The default the prompt offers is the first option, which ranks lowest. */
  lemma DefaultRanksFirst(subscriptions: seq<Subscription>, rank: Subscription -> int, s: Subscription)
    requires s in subscriptions
    ensures |PromptOptions(subscriptions, rank)| > 0
    ensures rank(PromptOptions(subscriptions, rank)[0]) <= rank(s)
  {
    var options := PromptOptions(subscriptions, rank);
    assert s in multiset(subscriptions);
    assert s in multiset(options);
    var k :| 0 <= k < |options| && options[k] == s;
    assert k == 0 || rank(options[0]) <= rank(options[k]);
  }

  //------------------------------------------------------------------------
  // selectSubscription and checkSubscription
  //------------------------------------------------------------------------

  /** `selectSubscription`: no subscription fails, a single one is taken
      without asking, otherwise the prompt decides and no answer fails. */
  function SelectSubscription(subscriptions: seq<Subscription>, rank: Subscription -> int, prompt: Prompt): (r: Result<string, SubscriptionError>)
    requires AnswersFromOptions(prompt)
    ensures r == Failure(NoSubscriptions) <==> |subscriptions| == 0
    ensures |subscriptions| == 1 ==> r == Success(subscriptions[0].subscriptionId)
    ensures |subscriptions| >= 2 ==>
      (r == Failure(NoneSelected) <==> prompt(PromptOptions(subscriptions, rank), PromptOptions(subscriptions, rank)[0]).None?)
    ensures |subscriptions| >= 2 && prompt(PromptOptions(subscriptions, rank), PromptOptions(subscriptions, rank)[0]).Some? ==>
      r == Success(prompt(PromptOptions(subscriptions, rank), PromptOptions(subscriptions, rank)[0]).value.subscriptionId)
    ensures r.Success? ==> exists i :: 0 <= i < |subscriptions| && subscriptions[i].subscriptionId == r.value
  {
    if |subscriptions| == 0 then Failure(NoSubscriptions)
    else if |subscriptions| == 1 then Success(subscriptions[0].subscriptionId)
    else
      var options := PromptOptions(subscriptions, rank);
      var selected := prompt(options, options[0]);
      if selected.None? then Failure(NoneSelected)
      else
        assert selected.value in multiset(options);
        assert selected.value in subscriptions;
        Success(selected.value.subscriptionId)
  }

  function ContainsId(subscriptions: seq<Subscription>, id: string): bool
  {
    if subscriptions == [] then false
    else subscriptions[0].subscriptionId == id || ContainsId(subscriptions[1..], id)
  }

  lemma {:induction false} ContainsIdMeansPresent(subscriptions: seq<Subscription>, id: string)
    ensures ContainsId(subscriptions, id) <==> exists i :: 0 <= i < |subscriptions| && subscriptions[i].subscriptionId == id
  {
    if subscriptions != [] {
      ContainsIdMeansPresent(subscriptions[1..], id);
      if ContainsId(subscriptions[1..], id) {
        var i :| 0 <= i < |subscriptions[1..]| && subscriptions[1..][i].subscriptionId == id;
        assert subscriptions[i + 1].subscriptionId == id;
      }
      if exists i :: 0 <= i < |subscriptions| && subscriptions[i].subscriptionId == id {
        var i :| 0 <= i < |subscriptions| && subscriptions[i].subscriptionId == id;
        if i > 0 {
          assert subscriptions[1..][i - 1].subscriptionId == id;
        }
      }
    }
  }

  /** `checkSubscription`: an empty target only warns; a target passes
      exactly when some subscription of the account carries that id. */
  function CheckSubscription(subscriptions: seq<Subscription>, target: Option<string>): (r: Outcome<SubscriptionError>)
    ensures r.Pass? <==> IsEmpty(target) || exists i :: 0 <= i < |subscriptions| && subscriptions[i].subscriptionId == target.value
    ensures r.Fail? ==> r.error == SubscriptionNotFound(target.value)
  {
    if IsEmpty(target) then Pass
    else
      ContainsIdMeansPresent(subscriptions, target.value);
      if ContainsId(subscriptions, target.value) then Pass else Fail(SubscriptionNotFound(target.value))
  }

  //------------------------------------------------------------------------
  // getTargetSubscriptionId: an ordered fallback
  //------------------------------------------------------------------------

  /** The id the credential's filter list selects: the single element of its
      intersection with the account's ids (`intersectIgnoreCase`, passed in),
      when there is exactly one. */
  function FilterPick(ids: seq<string>, filters: seq<string>, intersectIgnoreCase: (seq<string>, seq<string>) -> seq<string>): Option<string>
  {
    if |filters| > 0 && |intersectIgnoreCase(ids, filters)| == 1 then Some(intersectIgnoreCase(ids, filters)[0]) else None
  }

  /** The first candidate that is not blank. */
  function FirstResolved(candidates: seq<Option<string>>): (r: Option<string>)
    ensures r.Some? ==> !IsBlank(r)
    ensures r.Some? ==>
      exists k :: 0 <= k < |candidates| && candidates[k] == r && forall j :: 0 <= j < k ==> IsBlank(candidates[j])
    ensures r.None? ==> forall c :: c in candidates ==> IsBlank(c)
  {
    if candidates == [] then None
    else if !IsBlank(candidates[0]) then candidates[0]
    else
      var rest := FirstResolved(candidates[1..]);
      assert rest.Some? ==> exists k :: 0 <= k < |candidates| && candidates[k] == rest && forall j :: 0 <= j < k ==> IsBlank(candidates[j]) by {
        if rest.Some? {
          var k :| 0 <= k < |candidates[1..]| && candidates[1..][k] == rest && forall j :: 0 <= j < k ==> IsBlank(candidates[1..][j]);
          assert candidates[k + 1] == rest;
          assert forall j :: 0 <= j < k + 1 ==> IsBlank(candidates[j]) by {
            forall j | 0 <= j < k + 1 ensures IsBlank(candidates[j]) {
              if j > 0 { assert candidates[j] == candidates[1..][j - 1]; }
            }
          }
        }
      }
      rest
  }

  /** For three candidates, the first that is not blank. */
  lemma FirstResolvedOfThree(a: Option<string>, b: Option<string>, c: Option<string>)
    ensures FirstResolved([a, b, c]) ==
      if !IsBlank(a) then a else if !IsBlank(b) then b else if !IsBlank(c) then c else None
  {
    assert [a, b, c][1..] == [b, c];
    assert [b, c][1..] == [c];
    assert [c][1..] == [];
  }

  /** The reference definition of the target subscription: the configured
      id, the credential's default id and the filter pick, in that order,
      and the selection among the account's subscriptions when all three are
      blank. */
  function TargetSubscriptionId(
    configuredId: Option<string>, credential: CredentialWrapper, subscriptions: seq<Subscription>,
    intersectIgnoreCase: (seq<string>, seq<string>) -> seq<string>, rank: Subscription -> int, prompt: Prompt)
    : (r: Result<string, SubscriptionError>)
    requires AnswersFromOptions(prompt)
    // it fails only in the selection, once both ids are blank
    ensures r.Failure? ==>
      IsBlank(configuredId) && IsBlank(credential.defaultSubscriptionId) && (r.error == NoSubscriptions || r.error == NoneSelected)
    // the target is one of the ids, a filter match, or an account subscription
    ensures r.Success? ==>
      || Some(r.value) == configuredId
      || Some(r.value) == credential.defaultSubscriptionId
      || r.value in intersectIgnoreCase(SubscriptionIds(subscriptions), credential.filteredSubscriptionIds)
      || exists i :: 0 <= i < |subscriptions| && subscriptions[i].subscriptionId == r.value
  {
    var candidates := [configuredId, credential.defaultSubscriptionId,
                       FilterPick(SubscriptionIds(subscriptions), credential.filteredSubscriptionIds, intersectIgnoreCase)];
    match FirstResolved(candidates)
    case Some(id) => Success(id)
    case None => SelectSubscription(subscriptions, rank, prompt)
  }

  /** `getTargetSubscriptionId`, which narrows one local variable step by step. */
  method GetTargetSubscriptionId(
    configuredId: Option<string>, credential: CredentialWrapper, subscriptions: seq<Subscription>,
    intersectIgnoreCase: (seq<string>, seq<string>) -> seq<string>, rank: Subscription -> int, prompt: Prompt)
    returns (r: Result<string, SubscriptionError>)
    requires AnswersFromOptions(prompt)
    ensures r == TargetSubscriptionId(configuredId, credential, subscriptions, intersectIgnoreCase, rank, prompt)
  {
    var ids := SubscriptionIds(subscriptions);
    FirstResolvedOfThree(configuredId, credential.defaultSubscriptionId,
                         FilterPick(ids, credential.filteredSubscriptionIds, intersectIgnoreCase));
    var target := FirstNonBlank(configuredId, credential.defaultSubscriptionId);
    if IsBlank(target) && |credential.filteredSubscriptionIds| > 0 {
      var filtered := intersectIgnoreCase(ids, credential.filteredSubscriptionIds);
      if |filtered| == 1 {
        target := Some(filtered[0]);
      }
    }
    if IsBlank(target) {
      return SelectSubscription(subscriptions, rank, prompt);
    }
    return Success(target.value);
  }

  /** A configured id that is not blank wins over everything else. */
  lemma ConfiguredIdWins(
    configuredId: Option<string>, credential: CredentialWrapper, subscriptions: seq<Subscription>,
    intersectIgnoreCase: (seq<string>, seq<string>) -> seq<string>, rank: Subscription -> int, prompt: Prompt)
    requires AnswersFromOptions(prompt)
    requires !IsBlank(configuredId)
    ensures TargetSubscriptionId(configuredId, credential, subscriptions, intersectIgnoreCase, rank, prompt) == Success(configuredId.value)
  {
  }

  /** With a blank configured id, a default id that is not blank wins. */
  lemma DefaultIdSecond(
    configuredId: Option<string>, credential: CredentialWrapper, subscriptions: seq<Subscription>,
    intersectIgnoreCase: (seq<string>, seq<string>) -> seq<string>, rank: Subscription -> int, prompt: Prompt)
    requires AnswersFromOptions(prompt)
    requires IsBlank(configuredId) && !IsBlank(credential.defaultSubscriptionId)
    ensures TargetSubscriptionId(configuredId, credential, subscriptions, intersectIgnoreCase, rank, prompt)
            == Success(credential.defaultSubscriptionId.value)
  {
    FirstResolvedOfThree(configuredId, credential.defaultSubscriptionId,
                         FilterPick(SubscriptionIds(subscriptions), credential.filteredSubscriptionIds, intersectIgnoreCase));
  }

  /** The filter list is consulted only when both ids are blank: otherwise
      no choice of intersection changes the outcome. */
  lemma FilterIgnoredWhenAnIdIsSet(
    configuredId: Option<string>, credential: CredentialWrapper, subscriptions: seq<Subscription>,
    intersect1: (seq<string>, seq<string>) -> seq<string>, intersect2: (seq<string>, seq<string>) -> seq<string>,
    rank: Subscription -> int, prompt: Prompt)
    requires AnswersFromOptions(prompt)
    requires !IsBlank(configuredId) || !IsBlank(credential.defaultSubscriptionId)
    ensures TargetSubscriptionId(configuredId, credential, subscriptions, intersect1, rank, prompt)
         == TargetSubscriptionId(configuredId, credential, subscriptions, intersect2, rank, prompt)
  {
    if IsBlank(configuredId) {
      DefaultIdSecond(configuredId, credential, subscriptions, intersect1, rank, prompt);
      DefaultIdSecond(configuredId, credential, subscriptions, intersect2, rank, prompt);
    }
  }

  /** With both ids blank, a filter whose intersection with the account has
      exactly one (non-blank) element selects it without prompting. */
  lemma SingleFilterMatchSelected(
    configuredId: Option<string>, credential: CredentialWrapper, subscriptions: seq<Subscription>,
    intersectIgnoreCase: (seq<string>, seq<string>) -> seq<string>, rank: Subscription -> int, prompt: Prompt)
    requires AnswersFromOptions(prompt)
    requires IsBlank(configuredId) && IsBlank(credential.defaultSubscriptionId)
    requires |credential.filteredSubscriptionIds| > 0
    requires var matches := intersectIgnoreCase(SubscriptionIds(subscriptions), credential.filteredSubscriptionIds);
             |matches| == 1 && !IsBlank(Some(matches[0]))
    ensures TargetSubscriptionId(configuredId, credential, subscriptions, intersectIgnoreCase, rank, prompt)
         == Success(intersectIgnoreCase(SubscriptionIds(subscriptions), credential.filteredSubscriptionIds)[0])
  {
    FirstResolvedOfThree(configuredId, credential.defaultSubscriptionId,
                         FilterPick(SubscriptionIds(subscriptions), credential.filteredSubscriptionIds, intersectIgnoreCase));
  }

  /** When the configured id, the default id and the filter pick are all
      blank, the outcome is `selectSubscription`'s: a single subscription is
      used without prompting, an empty account fails, and otherwise the
      prompt decides. */
  lemma SelectionWhenNothingResolves(
    configuredId: Option<string>, credential: CredentialWrapper, subscriptions: seq<Subscription>,
    intersectIgnoreCase: (seq<string>, seq<string>) -> seq<string>, rank: Subscription -> int, prompt: Prompt)
    requires AnswersFromOptions(prompt)
    requires IsBlank(configuredId) && IsBlank(credential.defaultSubscriptionId)
    requires IsBlank(FilterPick(SubscriptionIds(subscriptions), credential.filteredSubscriptionIds, intersectIgnoreCase))
    ensures TargetSubscriptionId(configuredId, credential, subscriptions, intersectIgnoreCase, rank, prompt)
         == SelectSubscription(subscriptions, rank, prompt)
  {
    FirstResolvedOfThree(configuredId, credential.defaultSubscriptionId,
                         FilterPick(SubscriptionIds(subscriptions), credential.filteredSubscriptionIds, intersectIgnoreCase));
  }

  //------------------------------------------------------------------------
  // The subscription flow of getOrCreateAzureAppServiceClient
  //------------------------------------------------------------------------

  /** The management client, scoped to one subscription. */
  datatype ScopedClient = ScopedClient(credential: CredentialWrapper, subscriptionId: string)

  /**
   * The subscription part of `getOrCreateAzureAppServiceClient`. `login` is
   * the outcome of `MavenAuthManager.login` (a credential, null, or a login
   * failure) and `subscriptions` the account's list. The resolved id is
   * checked, then written back as the credential's default and used to
   * scope the client.
   */
  method GetOrCreateAzureAppServiceClient(
    login: Result<Option<CredentialWrapper>, LoginFailure>, configuredId: Option<string>, subscriptions: seq<Subscription>,
    intersectIgnoreCase: (seq<string>, seq<string>) -> seq<string>, rank: Subscription -> int, prompt: Prompt)
    returns (r: Result<Option<ScopedClient>, SubscriptionError>)
    requires AnswersFromOptions(prompt)
    ensures login.Failure? ==> r == Failure(LoginFailed(login.error))
    ensures login == Success(None) ==> r == Success(None)
    ensures login.Success? && login.value.Some? ==>
      var target := TargetSubscriptionId(configuredId, login.value.value, subscriptions, intersectIgnoreCase, rank, prompt);
      && (target.Failure? ==> r == Failure(target.error))
      && (target.Success? && CheckSubscription(subscriptions, Some(target.value)).Fail? ==>
            r == Failure(SubscriptionNotFound(target.value)))
      && (target.Success? && CheckSubscription(subscriptions, Some(target.value)).Pass? ==>
            r == Success(Some(ScopedClient(login.value.value.(defaultSubscriptionId := Some(target.value)), target.value))))
    // the client is scoped to a subscription of the account, or to none (after a warning)
    ensures r.Success? && r.value.Some? ==>
      && r.value.value.credential.defaultSubscriptionId == Some(r.value.value.subscriptionId)
      && (r.value.value.subscriptionId == "" ||
          exists i :: 0 <= i < |subscriptions| && subscriptions[i].subscriptionId == r.value.value.subscriptionId)
  {
    if login.Failure? {
      return Failure(LoginFailed(login.error));
    }
    if login.value.None? {
      return Success(None);
    }
    var credential := login.value.value;
    var target := GetTargetSubscriptionId(configuredId, credential, subscriptions, intersectIgnoreCase, rank, prompt);
    if target.Failure? {
      return Failure(target.error);
    }
    var check := CheckSubscription(subscriptions, Some(target.value));
    if check.Fail? {
      return Failure(check.error);
    }
    credential := credential.(defaultSubscriptionId := Some(target.value));
    r := Success(Some(ScopedClient(credential, target.value)));
  }
}

=== FILE: webapp_mojo.dfy ===
/**
 * The state the web-app Mojo keeps between calls: the null-defaulting
 * getters, the runtime that command-line injection rewrites at most once,
 * and the staging directory that is computed once per run.
 */
module WebAppMojo {
  import opened Wrappers
  import opened JavaStrings
  import opened ManagementPlane

  /** The `<runtime>` element of the plugin configuration, as bound by Maven. */
  datatype MavenRuntimeConfig = MavenRuntimeConfig(os: string, javaVersion: string, webContainer: string, image: string)

  /** `String.replaceAll` with a pattern free of regular-expression
      metacharacters: every non-overlapping occurrence, scanned from the
      left, is removed. */
  function RemoveAll(s: string, pattern: string): (r: string)
    ensures |r| <= |s|
    ensures pattern == [] ==> r == s
    decreases |s|
  {
    if pattern == [] || |s| == 0 then s
    else if |pattern| <= |s| && s[..|pattern|] == pattern then RemoveAll(s[|pattern|..], pattern)
    else [s[0]] + RemoveAll(s[1..], pattern)
  }

  /** The pattern occurs in `s` at position `k`. */
  predicate OccursAt(s: string, pattern: string, k: nat)
  {
    k + |pattern| <= |s| && s[k..k + |pattern|] == pattern
  }

  /** A string that holds no occurrence of the pattern comes back unchanged. */
  lemma {:induction false} RemoveAllAbsent(s: string, pattern: string)
    requires forall k: nat :: !OccursAt(s, pattern, k)
    ensures RemoveAll(s, pattern) == s
    decreases |s|
  {
    if pattern != [] && |s| != 0 {
      assert !OccursAt(s, pattern, 0);
      forall k: nat ensures !OccursAt(s[1..], pattern, k) {
        if k + |pattern| <= |s[1..]| {
          assert s[1..][k..k + |pattern|] == s[k + 1..k + 1 + |pattern|];
          assert !OccursAt(s, pattern, k + 1);
        }
      }
      RemoveAllAbsent(s[1..], pattern);
    }
  }

  /** `Paths.get(first, second, third).toString()` on a Unix file system,
      for segments that need no normalisation. */
  function JoinPath(first: string, second: string, third: string): string
  {
    first + "/" + second + "/" + third
  }

  class AbstractWebAppMojo {
    var appName: Option<string>
    var resources: Option<seq<Resource>>
    var stopAppDuringDeployment: bool
    var runtime: Option<MavenRuntimeConfig>
    var isRuntimeInjected: bool
    var stagingDirectory: Option<string>
    /** How many times command-line injection has been applied. */
    ghost var injections: nat

    ghost predicate Valid()
      reads this
    {
      injections == if isRuntimeInjected then 1 else 0
    }

    constructor (appName: Option<string>, resources: Option<seq<Resource>>, stopAppDuringDeployment: bool,
                 runtime: Option<MavenRuntimeConfig>)
      ensures Valid()
      ensures this.appName == appName && this.resources == resources
      ensures this.stopAppDuringDeployment == stopAppDuringDeployment && this.runtime == runtime
      ensures !isRuntimeInjected && stagingDirectory.None?
    {
      this.appName := appName;
      this.resources := resources;
      this.stopAppDuringDeployment := stopAppDuringDeployment;
      this.runtime := runtime;
      isRuntimeInjected := false;
      stagingDirectory := None;
      injections := 0;
    }

    /** `getAppName`: never null; the empty string stands for an unset name. */
    function GetAppName(): (name: string)
      reads this
      ensures appName.Some? ==> name == appName.value
      ensures appName.None? ==> name == ""
    {
      if appName.None? then "" else appName.value
    }

    /** `getResources`: never null; the empty list stands for unset resources. */
    function GetResources(): (rs: seq<Resource>)
      reads this
      ensures resources.Some? ==> rs == resources.value
      ensures resources.None? ==> rs == []
    {
      if resources.None? then [] else resources.value
    }

    method SetRuntime(runtime: Option<MavenRuntimeConfig>)
      modifies this`runtime
      ensures this.runtime == runtime
    {
      this.runtime := runtime;
    }

    /**
     * `getRuntime`: the first call rewrites the configured runtime with the
     * command-line overrides (`inject`, which stands for
     * `SystemPropertyUtils.injectCommandLineParameter`); later calls return
     * the runtime as it stands.
     */
    method GetRuntime(inject: Option<MavenRuntimeConfig> -> Option<MavenRuntimeConfig>) returns (r: Option<MavenRuntimeConfig>)
      requires Valid()
      modifies this`runtime, this`isRuntimeInjected, this`injections
      ensures Valid() && isRuntimeInjected && injections == 1
      ensures old(isRuntimeInjected) ==> runtime == old(runtime) && injections == old(injections)
      ensures !old(isRuntimeInjected) ==> runtime == inject(old(runtime))
      ensures r == runtime
    {
      if !isRuntimeInjected {
        SetRuntime(inject(runtime));
        isRuntimeInjected := true;
        injections := injections + 1;
      }
      r := runtime;
    }

    /**
     * `getDeploymentStagingDirectoryPath`: the first call computes
     * `<build directory>/<plugin name without its postfix>/<app name>-<uuid>`
     * and keeps it; every later call returns that same path. The random
     * UUID and the build directory are passed in; creating the directory
     * on disk is not modelled.
     */
    method GetDeploymentStagingDirectoryPath(buildDirectory: string, pluginName: string, pluginPostfix: string, uuid: string)
      returns (path: string)
      modifies this`stagingDirectory
      ensures stagingDirectory == Some(path)
      ensures old(stagingDirectory).Some? ==> path == old(stagingDirectory).value
      ensures old(stagingDirectory).None? ==>
        path == JoinPath(buildDirectory, RemoveAll(pluginName, pluginPostfix), GetAppName() + "-" + uuid)
    {
      if stagingDirectory.None? {
        var outputFolder := RemoveAll(pluginName, pluginPostfix);
        stagingDirectory := Some(JoinPath(buildDirectory, outputFolder, GetAppName() + "-" + uuid));
      }
      path := stagingDirectory.value;
    }
  }

  /** Two calls of `getRuntime` inject once, and both return the injected runtime. */
  method GetRuntimeTwice(mojo: AbstractWebAppMojo, inject: Option<MavenRuntimeConfig> -> Option<MavenRuntimeConfig>)
    returns (first: Option<MavenRuntimeConfig>, second: Option<MavenRuntimeConfig>)
    requires mojo.Valid() && !mojo.isRuntimeInjected
    modifies mojo
    ensures first == second == inject(old(mojo.runtime))
    ensures mojo.injections == 1
  {
    first := mojo.GetRuntime(inject);
    second := mojo.GetRuntime(inject);
  }

  /** Two calls of `getDeploymentStagingDirectoryPath` return the same path,
      whatever UUID the second call would have drawn. */
  method StagingPathStable(mojo: AbstractWebAppMojo, buildDirectory: string, pluginName: string, pluginPostfix: string,
                           uuid1: string, uuid2: string)
    returns (first: string, second: string)
    modifies mojo
    ensures first == second
  {
    first := mojo.GetDeploymentStagingDirectoryPath(buildDirectory, pluginName, pluginPostfix, uuid1);
    second := mojo.GetDeploymentStagingDirectoryPath(buildDirectory, pluginName, pluginPostfix, uuid2);
  }

  /** `getDeploymentSlot(app, slotName)`: no slot for an empty name; a name
      the app does not have gives null (`NoSuchElementException` is swallowed). */
  function GetDeploymentSlot<S>(appSlots: map<string, S>, slotName: Option<string>): (slot: Option<S>)
    ensures slot.Some? <==> !IsEmpty(slotName) && slotName.value in appSlots
    ensures slot.Some? ==> slot.value == appSlots[slotName.value]
  {
    if IsEmpty(slotName) then None
    else if slotName.value in appSlots then Some(appSlots[slotName.value])
    else None
  }
}

=== FILE: wrappers.dfy ===
/** Null, return-or-throw and void-or-throw wrappers shared by every module of the model. */
module Wrappers {

  /** A Java reference that may be null. */
  datatype Option<+T> = None | Some(value: T)

  /** The value of a Java call that either returns or throws. */
  datatype Result<+T, +E> = Success(value: T) | Failure(error: E)

  /** The value of a Java `void` call that either returns or throws. */
  datatype Outcome<+E> = Pass | Fail(error: E)
}
